=== FILE: README.md ===
# TradeMyStuff client core in Dafny

A model of the client-side logic of TradeMyStuff, a React Native marketplace
app. It covers:

- **The four Redux slices** — auth, user, product and chat. Each is a pure
  `Reduce(state, action)` over an `Action` datatype that names every
  synchronous reducer and every `pending`/`fulfilled`/`rejected` case of
  the async thunks.
- **The session plumbing:**
  - the HTTP client's two interceptors: attach the bearer token, and purge
    storage on a 401;
  - the auth endpoints' effects on persisted storage: login, signup,
    logout, refresh and the query calls;
  - the auth provider's `checkAuthStatus` bootstrap;
  - the root navigator's choice between the sign-in screens and the main
    tabs.
- **The pure logic of the screens:**
  - validation and request building in Login, Signup, ForgotPassword and
    CreateProduct;
  - the tag list of CreateProduct;
  - the status tabs of MyProducts;
  - the filter sheet and query handling of Search;
  - participant names, search and badges in ChatList;
  - sending and the read ticks in Chat.

The external world enters as parameters:

- **Storage:** persisted storage is a `map<string, string>`. Each
  AsyncStorage call can throw; a `Fault` value says which call of a run
  throws, if any.
- **Remote calls:** each settles as an `Outcome`, either `Ok(value)` or
  `Threw(Thrown(status, message))`. The outcome is an input to the model.
- **JavaScript semantics** used by the source are written out in small
  modules:
  - `Text`: `trim` (ASCII whitespace), `toLowerCase` (ASCII), `includes`,
    `slice(-4)` (the last four characters), `length` (UTF-16 code units),
    and the two regular
    expressions;
  - `Lists`: `find` followed by an in-place update, and `filter`;
  - `Base.MessageOr`: the `message || 'fallback'` idiom.

Modules, one concept each:

| module | file |
|---|---|
| `Base`, `Storage`, `Api`, `AuthApi` | base.dfy, storage.dfy, api.dfy, auth_api.dfy |
| `AuthSlice`, `UserSlice`, `ProductSlice`, `ChatSlice` | the `*_slice.dfy` files |
| `AuthContext`, `Session` | auth_context.dfy |
| `AuthForms`, `LoginScreen`, `SignupScreen`, `ForgotPasswordScreen` | auth_screens.dfy |
| `CreateProductScreen`, `MyProductsScreen`, `SearchScreen` | product_screens.dfy |
| `Participants`, `ChatListScreen`, `ChatScreen` | chat_screens.dfy |
| `Text`, `Lists`, `FieldErrors` | text.dfy, lists.dfy, form_errors.dfy |

## Model

| member | source | states |
|---|---|---|
| Storage.RunResumes | src/services/authAPI.ts:36-38 | A run of awaited storage calls that throws has applied exactly a prefix of its calls: issuing the calls from the failing one on completes what the fault-free run does. A key that no call names is never touched, whether or not the run throws. |
| Storage.PurgeEffect | src/services/api.ts:38-43 | Removing the two session keys: with no fault both keys are gone. A throw at the first removal leaves storage unchanged; a throw at the second removes only the token. Every other key is kept. |
| Storage.WriteSessionEffect | src/services/authAPI.ts:36-38 | The session write stores the token and the user snapshot under their keys and touches no other key. |
| Api.AttachBearer | src/services/api.ts:15-30 | The Authorization header is set to `Bearer <token>` exactly when the read succeeds and the stored token is truthy. Otherwise the headers pass through unchanged; a failed read is swallowed. Other headers are always kept. |
| Api.Settle | src/services/api.ts:33-48 | The interceptor never changes how a request settles. Storage is untouched unless the error has status 401, in which case both session keys are purged. |
| AuthApi.Serialise | src/services/authAPI.ts:38 | The stored user snapshot is a JSON object text: non-empty, opening and closing with a brace. Absent optional fields are left out, as `JSON.stringify` leaves out `undefined` properties. |
| AuthApi.Authenticate | src/services/authAPI.ts:32-52 | Login and signup succeed exactly when the request succeeds and both writes complete. A success stores the token and the serialised user. A failed request rethrows its error and leaves storage as it was, except for the 401 purge. |
| AuthApi.Logout | src/services/authAPI.ts:54-64 | The server's answer is ignored. The call fails only if a removal throws. Without such a throw both keys are gone, and every other key is kept. |
| AuthApi.RefreshToken | src/services/authAPI.ts:66-72 | On success only the stored token is overwritten, and the user snapshot is never touched. A failed request leaves storage as it was, except for the 401 purge. |
| AuthApi.Query | src/services/authAPI.ts:74-85 | The query calls make no storage writes of their own. The stored token changes only when the response is a 401. |
| AuthSlice.Reduce | src/store/slices/authSlice.ts:60-111 | Frame conditions for every field. `user` and `token` move only under their setter, a fulfilled login or signup, or a fulfilled logout. `isLoading` moves only under login or signup phases. `error` moves only under `clearError`, login and signup phases, or a fulfilled logout. The flag never moves under `clearError` or a pending case. |
| AuthSlice.PendingKeepsIdentity | src/store/slices/authSlice.ts:75-78 | A pending login or signup sets loading and clears the error; user, token and flag are kept. |
| AuthSlice.FulfilledAuthenticates | src/store/slices/authSlice.ts:79-100 | A fulfilled login or signup installs the response's user and token, authenticates, stops loading and clears the error. |
| AuthSlice.RejectedKeepsIdentity | src/store/slices/authSlice.ts:86-104 | A rejected login or signup keeps the identity and records the message, or "Login failed" / "Signup failed" when it is falsy. |
| AuthSlice.LogoutForgets | src/store/slices/authSlice.ts:105-110 | A fulfilled logout clears user, token, flag and error. Its pending and rejected cases change nothing. |
| AuthSlice.SettersAreIndependent | src/store/slices/authSlice.ts:61-71 | `setToken` and `setUser` each raise the flag without touching the other field; `clearError` clears only the error. |
| AuthSlice.ReducePreservesConsistent | src/store/slices/authSlice.ts:73-111 | Every action except the two setters preserves the invariant "authenticated iff both user and token are present". |
| AuthSlice.RunsWithoutSettersStayConsistent | src/store/slices/authSlice.ts:23-29 | From a consistent state, in particular the initial one, any run of actions without the setters stays consistent. |
| AuthSlice.SetTokenBreaksConsistency | src/store/slices/authSlice.ts:64-67 | The initial state is consistent, but `setToken` on it yields an authenticated state with no user. |
| UserSlice.Reduce | src/store/slices/userSlice.ts:74-120 | Frame conditions: `isLoading` moves only with the fetch and `isUpdating` only with the update. A profile appears only via set, fetch or update, and is never removed. |
| UserSlice.FetchReplacesOrKeeps | src/store/slices/userSlice.ts:88-96 | A fetched profile replaces the old one. A rejected fetch keeps it and records the message, or "Failed to fetch profile". |
| UserSlice.UpdateDrivesIsUpdating | src/store/slices/userSlice.ts:97-109 | The update raises `isUpdating` while pending and lowers it when settled; `isLoading` is never touched. A rejection keeps the profile. |
| UserSlice.UpdateOverlaysPayload | src/store/slices/userSlice.ts:101-105 | The spread merge, for all fourteen keys. Each key present in the payload wins. Every other key keeps the old profile's value, or is absent over a null profile. |
| UserSlice.UpdateIdempotentAndComplete | src/store/slices/userSlice.ts:101-105 | Applying the same update twice equals applying it once, and a complete profile stays complete. |
| UserSlice.AvatarOnlyTouchesAvatar | src/store/slices/userSlice.ts:110-114 | The avatar upload changes only the avatar of an existing profile. With no profile it is a no-op. |
| UserSlice.PreferencesMergeOnly | src/store/slices/userSlice.ts:115-119 | The preferences update changes only the preferences of an existing profile. For each of the three keys the payload's value wins when present; otherwise the old value, or absence, is kept. With no profile it is a no-op. |
| UserSlice.SettersFrame | src/store/slices/userSlice.ts:75-80 | `clearError` and `setProfile` change only their own field. |
| ProductSlice.Merge | src/store/slices/productSlice.ts:105-107 | `{ ...filters, ...patch }`: each key in the patch wins; every other key keeps its value. |
| ProductSlice.Reduce | src/store/slices/productSlice.ts:101-167 | Frame conditions for every field. `products` changes only under a fulfilled listing fetch. `currentProduct` changes only under its setter or a fulfilled by-id fetch. `filters` changes only under set/clear, and `featuredProducts` only under its fulfilled case. Loading and error move only with the listing, search and by-id phases. |
| ProductSlice.SetFiltersOverlays | src/store/slices/productSlice.ts:105-107 | An empty patch is a no-op, and a patch changes only the filters, key by key. |
| ProductSlice.SetFiltersCompose | src/store/slices/productSlice.ts:105-107 | Two `setFilters` in a row equal one with the combined patch, where the later value wins. |
| ProductSlice.ResetsRestoreInitial | src/store/slices/productSlice.ts:45-64 | The reset reducers restore the initial filters (`[0, 10000]` price range) and pagination (page 1, limit 20), and touch nothing else. |
| ProductSlice.FetchPageAppendsOrReplaces | src/store/slices/productSlice.ts:124-133 | Page 1 replaces the list; any other page (or a missing page number) appends after the existing products. The pagination is taken from the response. |
| ProductSlice.SearchReplacesOrKeeps | src/store/slices/productSlice.ts:142-150 | A successful search replaces the results. A failed one keeps them and records the message, or "Search failed". |
| ProductSlice.FeaturedLeavesLoading | src/store/slices/productSlice.ts:164-166 | The featured fetch writes only `featuredProducts`. It touches neither loading nor error, and its pending and rejected cases change nothing. |
| ProductSlice.LoadingBracketsRequests | src/store/slices/productSlice.ts:120-163 | Among the loading cases, the state is loading after the action exactly when the action is a pending one. |
| ProductSlice.ByIdFetchHidesSeller | src/store/slices/productSlice.ts:155-159 | As written, a fulfilled by-id fetch stores the whole detail response as the current product, so the detail screen finds no seller to read. Nothing else changes but loading and error. |
| ProductSlice.IntendedByIdShowsSeller | src/screens/main/ProductDetailScreen.tsx:131 | With the corrected reducer, the current product after a by-id fetch is the wrapped listing, just as `setCurrentProduct` would store it, and its seller's id is readable. |
| ChatSlice.Reduce | src/store/slices/chatSlice.ts:82-161 | Frame conditions: connection and current conversation change only under their setters. Outside a conversation fetch the thread list keeps its ids and order. Messages are only appended, replaced by a fetch, cleared or flipped read. |
| ChatSlice.FetchPendingKeepsCache | src/store/slices/chatSlice.ts:112-128 | A pending fetch sets loading and clears the error, but keeps the cached conversations and messages. |
| ChatSlice.FetchConversationsReplaces | src/store/slices/chatSlice.ts:116-120 | A fulfilled conversation fetch overwrites the list and nothing else. |
| ChatSlice.FetchMessagesReplaces | src/store/slices/chatSlice.ts:129-133 | A fulfilled message fetch overwrites the messages and nothing else. The conversation the page comes with is dropped, so the open conversation stays as it was. |
| ChatSlice.FetchRejectedKeepsCache | src/store/slices/chatSlice.ts:121-137 | A rejected fetch keeps the cache and records the message or the fixed fallback. |
| ChatSlice.SendAppendsAndTouchesFirst | src/store/slices/chatSlice.ts:138-148 | A sent message is appended. The first conversation with the response's id gets it as last message and its timestamp. Unread counts are never changed, and with no matching conversation the list is unchanged. |
| ChatSlice.FailedSendChangesNothing | src/store/slices/chatSlice.ts:110-148 | A send that is pending and then rejected leaves the whole chat state exactly as it was. |
| ChatSlice.OwnSendKeepsUnreadCount | src/store/slices/chatSlice.ts:138-148 | For any conversation that is the first with the returned id, a send makes the sent message its last message and timestamp while its unread count stays as it was. |
| ChatSlice.AddMessageAppends | src/store/slices/chatSlice.ts:86-96 | `addMessage` appends and touches the first matching conversation only. A message without a conversation id touches none. |
| ChatSlice.UpdateStatusTouchesFirst | src/store/slices/chatSlice.ts:97-102 | Only the first message with the id changes, and only its read flag. Length and order are kept, and with no match nothing changes. |
| ChatSlice.ClearMessagesOnlyMessages | src/store/slices/chatSlice.ts:106-108 | `clearMessages` empties the messages and nothing else. |
| ChatSlice.MarkAsReadEffect | src/store/slices/chatSlice.ts:149-160 | The first conversation with the id gets unread count 0. Every held message is flipped to read exactly when that id is the open conversation's; otherwise the messages are untouched. |
| ChatSlice.MarkAsReadIdempotent | src/store/slices/chatSlice.ts:149-160 | Marking a conversation read twice is the same as marking it once. |
| ChatSlice.NoConversationEverOpens | src/store/slices/chatSlice.ts:83-85 | From a state with no open conversation, any run of actions without `setCurrentConversation`, which no screen dispatches, still has no open conversation. |
| AuthContext.CheckAuthStatus | src/contexts/AuthContext.tsx:30-57 | Loading always ends. Verification is attempted exactly when both stored values are truthy. The provider authenticates exactly when the verification succeeds, and then dispatches `setToken` and `setUser` with the stored token and the server's user. A failed verification removes both keys. Without a verification storage is untouched. |
| Session.BootWithoutSession | src/navigation/RootNavigator.tsx:8-21 | With no stored session the app boots to the sign-in screens with storage and the Redux slice unchanged. |
| Session.BootRejectedPurges | src/contexts/AuthContext.tsx:35-47 | A stored session the server rejects is purged and ends on the sign-in screens. |
| Session.BootVerifiedAuthenticates | src/contexts/AuthContext.tsx:35-41 | A verified session shows the main tabs. The Redux slice ends consistent, holding the stored token and the server's user. |
| Session.LoginSurvivesRestart | src/services/authAPI.ts:32-41 | Login persists a session: after a restart, the bootstrap re-authenticates with the login's token while the server accepts it. |
| Session.LoginLeavesRootScreen | src/navigation/RootNavigator.tsx:8-21 | As written, a successful login authenticates the Redux slice but not the provider's flag, so the root stays on the sign-in screens. |
| Session.LoginIntended | src/contexts/AuthContext.tsx:26-27 | The corrected login: same storage and Redux outcome, and it also raises the provider's flag exactly when the login resolves. |
| Session.IntendedLoginShowsMainTabs | src/navigation/RootNavigator.tsx:8-21 | With the corrected login a successful login shows the main tabs, and a failed request leaves the root where it was. |
| AuthForms.EmailError | src/screens/auth/LoginScreen.tsx:44-50 | No error exactly when the text matches `\S+@\S+\.\S+`. "Email is required" exactly when the text is blank. |
| AuthForms.TrimmedEmailAccepted | src/screens/auth/LoginScreen.tsx:67 | The trimmed e-mail that is sent still passes the check and is non-empty. |
| LoginScreen.PasswordError | src/screens/auth/LoginScreen.tsx:52-58 | No error exactly when the password is not blank and its `length` (UTF-16 code units) is at least 6. The "required" message appears exactly when it is blank. The "at least 6 characters" message appears exactly when it is not blank but shorter. |
| LoginScreen.Validate | src/screens/auth/LoginScreen.tsx:39-61 | The form passes exactly when the e-mail matches the pattern and the password is non-blank with a `length` of at least 6 UTF-16 code units. Each field's message is its own check. |
| LoginScreen.Request | src/screens/auth/LoginScreen.tsx:63-71 | A request is made exactly when both checks pass. It carries the trimmed e-mail and the untrimmed password. |
| LoginScreen.FailureAlert | src/screens/auth/LoginScreen.tsx:68-70 | An alert exactly on failure, showing the error's message or the fallback. |
| LoginScreen.RequestStable | src/screens/auth/LoginScreen.tsx:63-71 | Submitting the sent credentials again sends the same credentials. |
| LoginScreen.PaddedPasswordCounts | src/screens/auth/LoginScreen.tsx:52-58 | The length rule counts padding. Every non-blank password of 6 or more code units passes, so some that pass are shorter than 6 once trimmed. Every all-space password is "required", however long. |
| SignupScreen.Set | src/screens/auth/SignupScreen.tsx:45-51 | The edited field takes the value; every other field is kept. |
| SignupScreen.UsernameError | src/screens/auth/SignupScreen.tsx:64-70 | No error exactly for word characters with a `length` of 3 or more. The first failing rule gives the message. "Required" appears exactly for a blank username. "Too short" appears exactly for a non-blank one under 3 UTF-16 code units. "Invalid characters" appears exactly for one of 3 or more code units that are not all word characters. |
| SignupScreen.PasswordError | src/screens/auth/SignupScreen.tsx:78-82 | No error exactly at a `length` of 6 or more UTF-16 code units, with no trim. "Required" appears exactly for the empty string. "Too short" appears exactly for a non-empty password under 6 code units. |
| SignupScreen.ConfirmError | src/screens/auth/SignupScreen.tsx:84-88 | No error exactly when the confirmation is non-empty and equal to the password. "Please confirm" appears exactly when it is empty. "Do not match" appears exactly when it is non-empty and differs. |
| SignupScreen.Validate | src/screens/auth/SignupScreen.tsx:53-92 | The error object holds exactly the failing fields, each with its message. |
| SignupScreen.ValidateAccepts | src/screens/auth/SignupScreen.tsx:53-92 | The form is accepted exactly when the names are not blank, the username is word characters with a `length` of 3 or more, the e-mail matches, the password's `length` is 6 or more, and the confirmation equals the password. |
| SignupScreen.Edit | src/screens/auth/SignupScreen.tsx:45-51 | Editing a field sets it and hides its shown error; the errors of other fields stay as shown. |
| SignupScreen.SettledAlert | src/screens/auth/SignupScreen.tsx:106-108 | A settled signup shows "Success" exactly when it succeeded and "Signup Failed" exactly when it threw. The failure's text is the error's message, or "Please try again" when it has none. |
| SignupScreen.SignupRequest | src/screens/auth/SignupScreen.tsx:94-110 | A request is made exactly when validation passes. Names and e-mail are trimmed and non-empty, the password is as typed, and the username, being word characters, is unchanged by its trim. |
| SignupScreen.ValidationIgnoresShownErrors | src/screens/auth/SignupScreen.tsx:45-92 | Validation depends on the form alone: re-entering a field's value never changes it. |
| SignupScreen.SpacePasswordLocksOut | src/screens/auth/SignupScreen.tsx:78-88 | As written, six spaces pass signup's password and confirmation checks but fail login's. |
| SignupScreen.PasswordErrorIntended | src/screens/auth/SignupScreen.tsx:78-82 | The corrected password check accepts exactly a non-blank password of 6 or more UTF-16 code units. |
| SignupScreen.LengthsCountCodeUnits | src/screens/auth/SignupScreen.tsx:64-82 | Lengths are JavaScript's: three characters outside the Basic Multilingual Plane make a password long enough on both screens, and two make a username long enough, which is then refused for its characters. |
| SignupScreen.IntendedPasswordMatchesLogin | src/screens/auth/LoginScreen.tsx:52-58 | The corrected signup check and login's check accept, and report "required", for the same passwords. |
| ForgotPasswordScreen.ValidateEmail | src/screens/auth/ForgotPasswordScreen.tsx:34-44 | The error is empty exactly when the e-mail matches; nothing else changes. |
| ForgotPasswordScreen.Submit | src/screens/auth/ForgotPasswordScreen.tsx:46-58 | The request is sent exactly when the e-mail matches, and it carries the trimmed e-mail. `isSubmitted` becomes true only on success. Loading ends after the request. An alert with the message or fallback is shown exactly on failure. |
| ForgotPasswordScreen.EditEmail | src/screens/auth/ForgotPasswordScreen.tsx:124-127 | Typing sets the e-mail and clears its error, leaving the flags as they were. |
| ForgotPasswordScreen.FailedSubmitRetries | src/screens/auth/ForgotPasswordScreen.tsx:46-58 | After a failed submit the form stays up and a retry sends the same request. |
| CreateProductScreen.Set | src/screens/main/CreateProductScreen.tsx:58-64 | The edited text field takes the value; every other field and the tags are kept. |
| CreateProductScreen.Edit | src/screens/main/CreateProductScreen.tsx:58-64 | Editing a field sets it and hides its shown error; the errors of other fields stay as shown. |
| CreateProductScreen.Validate | src/screens/main/CreateProductScreen.tsx:66-101 | The error object holds exactly the failing fields, each with its message. |
| CreateProductScreen.ValidateAccepts | src/screens/main/CreateProductScreen.tsx:66-101 | The form is accepted exactly when:<br>• title, description, price and location are not blank;<br>• the title's `length` is 5 or more UTF-16 code units and the description's 20 or more;<br>• the price parses above zero;<br>• a category and a condition are chosen. |
| CreateProductScreen.Submission | src/screens/main/CreateProductScreen.tsx:103-134 | A listing is sent exactly when validation passes. It has trimmed non-empty text fields, the parsed positive price, the chosen category and condition, no images, and the tags. |
| CreateProductScreen.PaddedTitleSentShort | src/screens/main/CreateProductScreen.tsx:69-73 | Every non-blank title of 5 or more code units passes, padding included, so some titles that pass are sent shorter than 5 code units once trimmed. |
| CreateProductScreen.AddTag | src/screens/main/CreateProductScreen.tsx:136-141 | A non-blank, trimmed, unlisted tag is appended and the input cleared; anything else changes nothing. The list stays clean and free of duplicates. |
| CreateProductScreen.AppendKeepsGood | src/screens/main/CreateProductScreen.tsx:137-138 | Appending a clean tag that is not yet listed keeps the list clean and free of duplicates. |
| CreateProductScreen.RemoveTag | src/screens/main/CreateProductScreen.tsx:143-145 | The removed tag is gone and every other tag is kept, in order. |
| CreateProductScreen.RemoveTagKeepsGood | src/screens/main/CreateProductScreen.tsx:143-145 | Removal keeps the list clean and duplicate-free, and removing an unlisted tag changes nothing. |
| CreateProductScreen.AddThenRemove | src/screens/main/CreateProductScreen.tsx:136-145 | Removing a tag just added restores the list. |
| MyProductsScreen.FilterAsWritten | src/screens/main/MyProductsScreen.tsx:104-107 | As written: "all" shows every listing. Any other tab shows exactly the listings whose status equals the tab's key, as a sub-multiset of the input. |
| MyProductsScreen.ActiveTabAlwaysEmpty | src/screens/main/MyProductsScreen.tsx:104-107 | As written, the "Active" tab shows nothing for any list of well-typed listings. |
| MyProductsScreen.StatusLabel | src/screens/main/MyProductsScreen.tsx:122-133 | Each known status is captioned with its tab's label; an unknown status is shown as is. |
| MyProductsScreen.Filter | src/screens/main/MyProductsScreen.tsx:226-244 | The corrected filter. A status tab shows exactly the listings with the tab's status, where "Active" selects `available`. The other tabs agree with the code as written. |
| MyProductsScreen.TabShowsItsLabel | src/screens/main/MyProductsScreen.tsx:122-133 | With the corrected filter, each status tab shows exactly the listings whose card label is the tab's caption. |
| MyProductsScreen.TabsPartition | src/screens/main/MyProductsScreen.tsx:280-294 | The three status tabs partition the listings, and the Active tab's size is the header's "available" count. |
| MyProductsScreen.StatusLabelIdempotent | src/screens/main/MyProductsScreen.tsx:122-133 | Captions are not statuses: labelling a label changes nothing. |
| SearchScreen.HandleSearch | src/screens/main/SearchScreen.tsx:76-84 | A search is started exactly for a non-blank query, with the trimmed, non-empty query. |
| SearchScreen.QueryChangeEffect | src/screens/main/SearchScreen.tsx:65-74 | A blank query empties the store's results and changes nothing else. Any other query leaves the store unchanged and searches for the trimmed text. |
| SearchScreen.ToggleTwice | src/screens/main/SearchScreen.tsx:183-205 | Tapping a chip twice restores the draft. A chip becomes unselected exactly when it was the selected one. |
| SearchScreen.ToggleCategory | src/screens/main/SearchScreen.tsx:183-185 | A category chip toggles. Afterwards that chip or none is selected, and none exactly when the chip was the selected one. Nothing else in the draft changes. |
| SearchScreen.ToggleCondition | src/screens/main/SearchScreen.tsx:203-205 | A condition chip toggles the same way. |
| SearchScreen.SelectedChips | src/screens/main/SearchScreen.tsx:227-230 | The selected price chips are those whose range equals the draft's, and at most one chip is ever selected. |
| SearchScreen.OnePriceChip | src/screens/main/SearchScreen.tsx:57-63 | Choosing a price chip selects exactly that chip, and the default range selects none. |
| SearchScreen.ChoosePrice | src/screens/main/SearchScreen.tsx:231 | A price chip sets the draft's range and does not toggle. Afterwards the chip carrying that range is the only one shown as selected, and none is for a range no chip carries. Category, condition and location keep their choice. |
| SearchScreen.ApplyStoresDraft | src/screens/main/SearchScreen.tsx:93-99 | Applying dispatches one `setFilters`, after which the store's filters are exactly the draft and nothing else in the store has changed. It searches for the trimmed query exactly when the query is not blank. |
| SearchScreen.ClearAllKeepsStoredFilters | src/screens/main/SearchScreen.tsx:101-109 | The draft's defaults are the store's initial filters, but clearing does not reset the store's filters; it only empties the results. |
| SearchScreen.ClearAll | src/screens/main/SearchScreen.tsx:101-109 | The cleared draft is the store's initial filters, with no price chip selected. Clearing starts no search. It dispatches one action, which empties the results of any store and changes nothing else. |
| SearchScreen.SearchIgnoresSelection | src/store/slices/productSlice.ts:74-80 | The search request depends on the query alone; the draft never reaches it. |
| Participants.Other | src/screens/main/ChatScreen.tsx:91-94 | The first participant who is not the signed-in user. None exactly when every participant is the user. |
| ChatListScreen.ParticipantName | src/screens/main/ChatListScreen.tsx:71-78 | "User " followed by the last four characters of the other participant's id, or "Unknown" when there is none or it is empty. |
| ChatListScreen.Visible | src/screens/main/ChatListScreen.tsx:45-55 | A blank query shows every conversation. Otherwise the shown conversations are those whose name contains the query, in order. |
| ChatListScreen.SearchIgnoresCase | src/screens/main/ChatListScreen.tsx:47-49 | A query and its lower-cased form show the same list. |
| ChatListScreen.QueryUserShowsAll | src/screens/main/ChatListScreen.tsx:77 | Every name contains "user", so that query hides nothing. |
| ChatListScreen.BadgeOf | src/screens/main/ChatListScreen.tsx:132-138 | The badge is hidden exactly at zero or below and shows "99+" exactly above 99. Otherwise it shows the count. |
| ChatListScreen.MarkAsReadHidesBadge | src/store/slices/chatSlice.ts:149-153 | Marking a conversation read hides its badge and leaves every other badge as it was. |
| ChatScreen.ReceiverId | src/screens/main/ChatScreen.tsx:91-94 | The receiver is the other participant of the open conversation, or `""`. A non-empty receiver is a participant who is not the user. |
| ChatScreen.HandleSend | src/screens/main/ChatScreen.tsx:68-89 | Nothing happens for a blank text or with no user. Otherwise the trimmed text is sent and pending is dispatched, then fulfilled or rejected. The box is cleared only on success; a failure alerts and keeps the text. |
| ChatScreen.SendReachesStore | src/screens/main/ChatScreen.tsx:68-89 | End to end: a successful send empties the box and appends the server's message. A failed one keeps the text and leaves the store exactly as it was. |
| ChatScreen.ReadIndicator | src/screens/main/ChatScreen.tsx:154-160 | No tick on others' messages; two ticks exactly on one's own read messages. |
| ChatScreen.Open | src/screens/main/ChatScreen.tsx:44-66 | Opening a non-empty conversation id starts the message fetch and then the mark-read, and settles both in either order. An alert appears exactly when the fetch fails. An empty id starts nothing. |
| ChatScreen.OpeningKeepsReadFlags | src/store/slices/chatSlice.ts:149-160 | As written, from the state the app reaches, with no open conversation, opening leaves the fetched messages' read flags as the server sent them, in either settle order. Nothing is opened, so the receiver id stays empty. A failed fetch keeps the messages held. |
| ChatScreen.ReceiverAlwaysEmpty | src/screens/main/ChatScreen.tsx:91-94 | As written, after any run of dispatched actions from start-up, the receiver id of every send is empty. |
| ChatScreen.OpeningShowsOwnAsRead | src/screens/main/ChatScreen.tsx:44-66 | With the corrected reducer, opening a conversation makes it the open one, and its receiver is the other participant. When the mark-read settles after the fetch, every fetched message is read and every own bubble shows two ticks. When it settles first, the page is kept as sent. |
| FieldErrors.Dismiss | src/screens/auth/SignupScreen.tsx:45-51 | Hides the edited field's shown error and keeps every key and every other message. |
| FieldErrors.CollectEmpty | src/screens/main/CreateProductScreen.tsx:100 | The error object is empty exactly when every field passes. |
| Text.Trim | src/screens/auth/LoginScreen.tsx:67 | `trim` is no longer than its input and has no space at either end. It is empty exactly for blank input. |
| Text.TrimBothEnds | src/screens/auth/LoginScreen.tsx:67 | `trim` removes only spaces, and only from the two ends: the result is an infix of the input bounded by whitespace. |
| Text.TrimIdempotent | src/screens/main/CreateProductScreen.tsx:137-138 | Trimming twice is trimming once. |
| Text.TrimKeepsEmailShape | src/screens/auth/ForgotPasswordScreen.tsx:51 | A text matching the e-mail pattern still matches after trimming. |
| Text.LastFour | src/screens/main/ChatListScreen.tsx:77 | `slice(-4)` is the last min(4, number of characters) characters of the string, a suffix of it. |
| Text.Lower | src/screens/main/ChatListScreen.tsx:49 | `toLowerCase` keeps the length and leaves no upper-case letter. Every other character is kept in place, and each upper-case letter becomes its lower-case partner. |
| Text.Utf16Length | src/screens/auth/LoginScreen.tsx:55 | `length` counts UTF-16 code units: between the number of characters and twice it, and equal to it exactly when no character lies outside the Basic Multilingual Plane. |
| Text.Utf16LengthAppend | src/screens/main/CreateProductScreen.tsx:71 | The `length` of a concatenation is the sum of the lengths. |
| Text.TrimPadded | src/screens/main/CreateProductScreen.tsx:137-138 | Trimming white space that pads a string with no white space at its ends gives that string back. |
| Lists.FindIndex | src/store/slices/chatSlice.ts:89-91 | `find`: the first index satisfying the predicate, or none exactly when no element does. |
| Lists.UpdateFirst | src/store/slices/chatSlice.ts:89-95 | `find`, then an in-place mutation: only the found element changes, to its updated value. Every other element, and the whole list when nothing matches, is kept. |
| Lists.UpdateFirstKeepsIndex | src/store/slices/chatSlice.ts:89-95 | An update that keeps the element matching leaves the first match at the same index. |
| Lists.Keep | src/screens/main/MyProductsScreen.tsx:104-107 | `filter`: exactly the elements satisfying the predicate, a sub-multiset of the input. |
| Lists.CountPartition | src/screens/main/MyProductsScreen.tsx:280-294 | Three disjoint predicates that cover the list split its length. |

## Left out

- The UI: JSX, styles, navigation calls, the `showPassword` toggles, the
  refresh controls and the dialogs.
- productAPI, userAPI and chatAPI. They are thin HTTP wrappers, and their
  results enter the slices as action payloads.
- `fetchProductsByUser`, which the MyProducts screen imports but no slice
  defines.
- Concurrency: the order in which async thunks and effects interleave.
  The model applies each thunk's actions in dispatch order. The one
  exception is opening a chat, where the two requests may settle in either
  order; `ChatScreen.Open` takes that order as a parameter. The search
  debounce's timer is left out.
- The socket-driven `addMessage` and `setConnectionStatus` sources.
  Their reducers are modelled.
- Date formatting and avatars.
- Message and product fields the logic never reads, such as images and
  metadata.
- AuthApi.Serialise: does not escape string contents as `JSON.stringify`
  does. The snapshot is never parsed back by the modelled code.
- CreateProductScreen.Submission: `Number(price)` is a parameter
  (`ParseNumber`) rather than JavaScript's number parser. Prices and
  ratings, here and in the slices, are `real`, not IEEE doubles.
- ProductSlice.Reduce: `currentProduct` holds either a listing or the
  detail response, since JavaScript lets the detail response sit in a
  field typed as a listing. The detail screen's other reads of it are not
  modelled.
- Text.Trim: `trim` is modelled on ASCII whitespace only. The infix
  property is stated in `Text.TrimBothEnds` rather than in `Trim`'s own
  contract.
- Text.Lower: `toLowerCase` is modelled on the ASCII letters only; other
  characters are kept as they are.
- Text.LastFour: takes the last four characters, where JavaScript's
  `slice(-4)` takes the last four UTF-16 code units. The same gap is in
  ChatListScreen.ParticipantName, which shows that tail. The two agree
  whenever the id's last four characters lie in the Basic Multilingual
  Plane, as they do for the server's ASCII ids. A tail that cuts a
  surrogate pair in two has no `string` value in the model.
- Text.EmailShape: the pattern's `\S` is ASCII non-whitespace.
- ChatScreen.HandleSend: the transient `isSending = true` state between
  dispatch and settlement is not modelled; only the state after the send
  is.
- Counts such as `unreadCount`, `page` and `total` are unbounded integers.
  JavaScript numbers do not overflow at the sizes involved.
- An optional field is `None` when its key is absent. `||` and the
  `if (state.profile)` tests read `undefined` and `null` the same way.
  The object spreads do not: see the two lines below.
- UserSlice.UpdateOverlaysPayload: assumes the update payload carries no
  `null` or `undefined` values. A spread copies such a key, so in the
  source a key sent as `null` clears the old value (userSlice.ts:103).
  The model keeps the old value, because its payload cannot hold a
  present-but-empty key.
- UserSlice.PreferencesMergeOnly: the same assumption for the preferences
  payload; a preference sent as `null` clears the old value in the
  source's spread (userSlice.ts:117) but is kept in the model.
- `store.ts`, the store's wiring, adds no logic.
- The HTTP error's message when no response arrived is a `Thrown` with no
  status. Only status 401 is special-cased.

## Findings

| source | as written | input that shows it | evidently intended | confidence | as-written member | corrected member |
|---|---|---|---|---|---|---|
| src/screens/main/MyProductsScreen.tsx:104-107 | The tabs filter on `status === activeFilter`, and the "Active" tab's key is `active`. | Any listing, such as one with status `available`: the Active tab is empty. | The "Active" tab shows listings with status `available`, which is the status the card labels "Active". | not executed | MyProductsScreen.ActiveTabAlwaysEmpty | MyProductsScreen.TabShowsItsLabel |
| src/contexts/AuthContext.tsx:26-27 | The provider's `isAuthenticated` is set only by `checkAuthStatus`, and the login screen dispatches only the Redux thunk. | A successful login from the sign-in screen: the Redux slice is authenticated, but the root navigator still shows the sign-in screens. | A successful login switches the root to the main tabs. | not executed | Session.LoginLeavesRootScreen | Session.IntendedLoginShowsMainTabs |
| src/store/slices/chatSlice.ts:129-133 | `fetchMessages.fulfilled` stores the messages but drops the response's conversation. Only `setCurrentConversation` sets the open conversation, and no screen dispatches it. | Opening any conversation: `getReceiverId` returns `""` for every send, and the mark-read never flips a message, because no conversation is ever current. | Opening a conversation makes the fetched conversation the open one, so sends are addressed to the other participant and the mark-read flips the page. | not executed | ChatScreen.ReceiverAlwaysEmpty | ChatScreen.OpeningShowsOwnAsRead |
| src/store/slices/productSlice.ts:155-159 | `fetchProductById.fulfilled` stores its payload, the whole `ProductDetailResponse` of `{product, relatedProducts, sellerInfo}` (src/services/productAPI.ts:22-35), as `currentProduct`. | Any fetched product: the detail screen's `currentProduct.seller.id` (src/screens/main/ProductDetailScreen.tsx:131) reads a key the response does not have. | The reducer stores the wrapped `product`, the listing the detail screen reads. | not executed; whether the server really wraps the listing is outside this model | ProductSlice.ByIdFetchHidesSeller | ProductSlice.IntendedByIdShowsSeller |
| src/screens/auth/SignupScreen.tsx:78-82 | The signup password check tests `!formData.password`, with no trim. | A password of six spaces: signup accepts it, but the login screen rejects it as "required". | The same rule as login: a non-blank password of at least 6 code units. | not executed | SignupScreen.SpacePasswordLocksOut | SignupScreen.IntendedPasswordMatchesLogin |

Observations that follow the code as written:

- A 401 during login purges any stored session before the error is shown
  (`AuthApi.Authenticate`).
- The Search screen's filters are stored but never sent with the search
  (`SearchScreen.SearchIgnoresSelection`). Clearing the sheet does not
  reset the stored filters (`SearchScreen.ClearAllKeepsStoredFilters`).
- Length rules count the padding that is trimmed off before sending
  (`CreateProductScreen.PaddedTitleSentShort`,
  `LoginScreen.PaddedPasswordCounts`).
- Opening a chat fetches its messages, but the open conversation is never
  set, so its mark-read flips no message and every send carries an empty
  receiver id (`ChatScreen.OpeningKeepsReadFlags`,
  `ChatScreen.ReceiverAlwaysEmpty`).

=== FILE: api.dfy ===
/** The shared HTTP client's two interceptors. The request interceptor adds
    the stored bearer token; the response interceptor purges the stored
    session on a 401 and re-rejects every error unchanged. */
module Api {
  import opened Base
  import opened Storage

  type Headers = map<string, string>

  const AuthorizationHeader := "Authorization"
  const BearerPrefix := "Bearer "

  /** The request interceptor. It reads the stored token; a truthy token
      becomes `Authorization: Bearer <token>`, an absent or empty one leaves
      the headers alone, and a read that throws is logged and the request
      goes out with its headers unchanged. */
  function AttachBearer(headers: Headers, st: Store, readFault: Fault): (r: Headers)
    ensures forall k | k in headers && k != AuthorizationHeader :: k in r && r[k] == headers[k]
    ensures r.Keys <= headers.Keys + {AuthorizationHeader}
    ensures !Throws(readFault, 1) && Truthy(GetItem(st, AuthTokenKey)) ==>
      && AuthorizationHeader in r
      && |r[AuthorizationHeader]| == |BearerPrefix| + |st[AuthTokenKey]|
      && r[AuthorizationHeader][..|BearerPrefix|] == "Bearer "
      && r[AuthorizationHeader][|BearerPrefix|..] == st[AuthTokenKey]
    ensures Throws(readFault, 1) || !Truthy(GetItem(st, AuthTokenKey)) ==> r == headers
  {
    if Throws(readFault, 1) then headers
    else
      var token := GetItem(st, AuthTokenKey);
      if Truthy(token) then headers[AuthorizationHeader := BearerPrefix + token.value] else headers
  }

  /** A call through the client: the store after it and how it settled. */
  datatype Call<+T> = Call(store: Store, result: Outcome<T>)

  predicate Unauthorized<T>(response: Outcome<T>) {
    response.Threw? && response.error.status == Some(401)
  }

  /** The response interceptor applied to a settled request. A success
      passes through; a 401 first purges both session keys, swallowing any
      storage error; every error is then re-rejected as it was. */
  function Settle<T>(st: Store, response: Outcome<T>, purgeFault: Fault): (r: Call<T>)
    ensures r.result == response
    ensures !Unauthorized(response) ==> r.store == st
    ensures Unauthorized(response) ==> r.store == Purge(st, purgeFault).store
    ensures Unauthorized(response) && !Throws(purgeFault, 2) ==>
      AuthTokenKey !in r.store && UserDataKey !in r.store
  {
    if Unauthorized(response) then
      PurgeEffect(st, purgeFault);
      Call(Purge(st, purgeFault).store, response)
    else
      Call(st, response)
  }
}

=== FILE: auth_api.dfy ===
/** The auth endpoints' client-side effects on persisted storage. Each call
    goes through the shared client, so its response first passes the
    response interceptor (a 401 purges the session), and then the call's own
    storage writes or removals run. */
module AuthApi {
  import opened Base
  import opened Storage
  import opened Api
  import AuthSlice

  /** `JSON.stringify(user)`, without string escaping: an object literal,
      so never empty. An optional field that is absent is left out, as
      `JSON.stringify` leaves out an `undefined` property. */
  function Serialise(u: AuthSlice.User): (r: string)
    ensures r != "" && r[0] == '{' && r[|r| - 1] == '}'
  {
    "{\"id\":\"" + u.id + "\",\"email\":\"" + u.email + "\",\"username\":\"" + u.username
      + "\",\"firstName\":\"" + u.firstName + "\",\"lastName\":\"" + u.lastName + "\""
      + OptionalKey("avatar", u.avatar) + OptionalKey("phone", u.phone) + OptionalKey("location", u.location) + "}"
  }

  /** One optional string property, with its leading comma, or nothing. */
  function OptionalKey(name: string, value: Option<string>): string {
    if value.Some? then ",\"" + name + "\":\"" + value.value + "\"" else ""
  }

  /** `login` and `signup` (the same code against two endpoints): once the
      POST resolves, write the token and then the serialised user. A failed
      POST writes nothing; a write that throws rejects the call with the
      writes before it kept. */
  function Authenticate(st: Store, response: Outcome<AuthSlice.AuthResponse>, purgeFault: Fault, writeFault: Fault)
    : (r: Call<AuthSlice.AuthResponse>)
    ensures r.result.Ok? <==> response.Ok? && !Throws(writeFault, 2)
    ensures r.result.Ok? ==>
      && r.result == response
      && GetItem(r.store, AuthTokenKey) == Some(response.value.token)
      && GetItem(r.store, UserDataKey) == Some(Serialise(response.value.user))
      && forall k | k in st && k != AuthTokenKey && k != UserDataKey :: k in r.store && r.store[k] == st[k]
    ensures response.Threw? ==> r.result == response
    ensures response.Threw? && !Unauthorized(response) ==> r.store == st
    ensures Unauthorized(response) && !Throws(purgeFault, 2) ==>
      AuthTokenKey !in r.store && UserDataKey !in r.store
  {
    var c := Settle(st, response, purgeFault);
    match c.result
    case Threw(_) => c
    case Ok(auth) =>
      var w := Run(c.store, WriteSession(auth.token, Serialise(auth.user)), writeFault);
      WriteSessionEffect(c.store, auth.token, Serialise(auth.user));
      if w.thrown.Some? then Call(w.store, Threw(w.thrown.value)) else Call(w.store, Ok(auth))
  }

  /** `logout`: the POST is best-effort (its error is logged, not rethrown)
      and both keys are removed afterwards whatever it returned. Only a
      removal that throws rejects the call. */
  function Logout(st: Store, response: Outcome<()>, purgeFault: Fault, removeFault: Fault): (r: Call<()>)
    ensures r.result.Ok? <==> !Throws(removeFault, 2)
    ensures r.result.Threw? ==> r.result.error == removeFault.error
    ensures !Throws(removeFault, 2) ==> AuthTokenKey !in r.store && UserDataKey !in r.store
    ensures forall k | k in st && k != AuthTokenKey && k != UserDataKey :: k in r.store && r.store[k] == st[k]
  {
    var c := Settle(st, response, purgeFault);
    PurgeEffect(st, purgeFault);
    PurgeEffect(c.store, removeFault);
    var p := Purge(c.store, removeFault);
    if p.thrown.Some? then Call(p.store, Threw(p.thrown.value)) else Call(p.store, Ok(()))
  }

  /** `refreshToken`: on success overwrite the stored token and nothing else;
      the user snapshot is left as it was. */
  function RefreshToken(st: Store, response: Outcome<string>, purgeFault: Fault, writeFault: Fault): (r: Call<string>)
    ensures r.result.Ok? <==> response.Ok? && !Throws(writeFault, 1)
    ensures r.result.Ok? ==> r.result == response && r.store == st[AuthTokenKey := response.value]
    ensures response.Ok? ==> GetItem(r.store, UserDataKey) == GetItem(st, UserDataKey)
    ensures response.Threw? && !Unauthorized(response) ==> r.store == st
  {
    var c := Settle(st, response, purgeFault);
    match c.result
    case Threw(_) => c
    case Ok(token) =>
      var ops := [SetItem(AuthTokenKey, token)];
      assert ApplyAll(c.store, ops) == ApplyAll(c.store[AuthTokenKey := token], []);
      assert ops[..0] == [];
      var w := Run(c.store, ops, writeFault);
      if w.thrown.Some? then Call(w.store, Threw(w.thrown.value)) else Call(w.store, Ok(token))
  }

  /** `getCurrentUser`, `forgotPassword` and `resetPassword`: no storage
      effect of their own, so storage changes only through the interceptor's
      401 purge. */
  function Query<T>(st: Store, response: Outcome<T>, purgeFault: Fault): (r: Call<T>)
    ensures r.result == response
    ensures !Unauthorized(response) ==> r.store == st
    ensures GetItem(r.store, AuthTokenKey) != GetItem(st, AuthTokenKey) ==> Unauthorized(response)
  {
    Settle(st, response, purgeFault)
  }
}

=== FILE: auth_context.dfy ===
/** The session bootstrap: the provider's own `isAuthenticated`/`isLoading`
    flags (the ones the root navigator reads) and `checkAuthStatus`, which
    decides them from persisted storage and a "who am I" call. */
module AuthContext {
  import opened Base
  import opened Storage
  import Api
  import AuthApi
  import AuthSlice

  /** The provider's two `useState` flags. */
  datatype Context = Context(isAuthenticated: bool, isLoading: bool)

  /** Before the check has run: not authenticated, loading. */
  const Initial := Context(false, true)

  /** What `checkAuthStatus` leaves behind: storage, the provider's flags,
      the Redux actions it dispatched in order, and whether it called the
      verification endpoint at all. */
  datatype Check = Check(store: Store, context: Context, dispatched: seq<AuthSlice.Action>, verified: bool)

  /** Both stored values are truthy, so verification is attempted. */
  predicate HasStoredSession(st: Store) {
    Truthy(GetItem(st, AuthTokenKey)) && Truthy(GetItem(st, UserDataKey))
  }

  /** `checkAuthStatus`. `readFault` covers the two reads, `verify` is the
      settled "who am I" request, `purgeFault` the interceptor's 401 purge
      during it and `removeFault` the two removals after a failed
      verification (a removal that throws lands in the outer handler, which
      also ends unauthenticated). */
  function CheckAuthStatus(st: Store, readFault: Fault, verify: Outcome<AuthSlice.User>, purgeFault: Fault, removeFault: Fault)
    : (r: Check)
    ensures !r.context.isLoading
    ensures r.verified <==> !Throws(readFault, 2) && HasStoredSession(st)
    ensures r.context.isAuthenticated <==> r.verified && verify.Ok?
    ensures r.context.isAuthenticated ==>
      && r.store == st
      && r.dispatched == [AuthSlice.SetToken(st[AuthTokenKey]), AuthSlice.SetUser(verify.value)]
    ensures !r.context.isAuthenticated ==> r.dispatched == []
    ensures !r.verified ==> r.store == st
    ensures r.verified && verify.Threw? && !Throws(removeFault, 2) ==>
      AuthTokenKey !in r.store && UserDataKey !in r.store
  {
    var unauthenticated := Context(false, false);
    if Throws(readFault, 2) then
      Check(st, unauthenticated, [], false)
    else if HasStoredSession(st) then
      var c := AuthApi.Query(st, verify, purgeFault);
      match c.result
      case Ok(user) =>
        Check(c.store, Context(true, false), [AuthSlice.SetToken(st[AuthTokenKey]), AuthSlice.SetUser(user)], true)
      case Threw(_) =>
        PurgeEffect(c.store, removeFault);
        Check(Purge(c.store, removeFault).store, unauthenticated, [], true)
    else
      Check(st, unauthenticated, [], false)
  }
}

/** The app's session as the user experiences it: persisted storage, the
    provider's flags (which choose between the sign-in screens and the main
    tabs) and the Redux auth slice. */
module Session {
  import opened Base
  import opened Storage
  import Api
  import AuthApi
  import AuthSlice
  import AuthContext

  datatype Session = Session(store: Store, context: AuthContext.Context, auth: AuthSlice.AuthState)

  /** A process start over whatever storage holds. */
  function Launch(st: Store): Session {
    Session(st, AuthContext.Initial, AuthSlice.Initial)
  }

  /** The provider's mount effect: run the check, then apply the actions it
      dispatched to the Redux slice. */
  function Boot(s: Session, readFault: Fault, verify: Outcome<AuthSlice.User>, purgeFault: Fault, removeFault: Fault): Session {
    var c := AuthContext.CheckAuthStatus(s.store, readFault, verify, purgeFault, removeFault);
    Session(c.store, c.context, AuthSlice.ReduceAll(s.auth, c.dispatched))
  }

  /** Dispatching the login (or signup) thunk: pending, the API call, then
      fulfilled with the response or rejected with the error's message. The
      provider's flags are not touched. */
  function Login(s: Session, response: Outcome<AuthSlice.AuthResponse>, purgeFault: Fault, writeFault: Fault): Session {
    var pending := AuthSlice.Reduce(s.auth, AuthSlice.LoginPending);
    var c := AuthApi.Authenticate(s.store, response, purgeFault, writeFault);
    var settled := match c.result
      case Ok(resp) => AuthSlice.Reduce(pending, AuthSlice.LoginFulfilled(resp))
      case Threw(e) => AuthSlice.Reduce(pending, AuthSlice.LoginRejected(e.message));
    Session(c.store, s.context, settled)
  }

  /** Which navigator the root shows: a spinner while loading, then the main
      tabs exactly when the provider's flag is set. */
  datatype Screen = Spinner | SignIn | MainTabs

  function RootScreen(s: Session): Screen {
    if s.context.isLoading then Spinner else if s.context.isAuthenticated then MainTabs else SignIn
  }

  /** With nothing usable stored, the check makes no request, leaves
      storage as it was and ends unauthenticated and no longer loading. */
  lemma BootWithoutSession(st: Store, readFault: Fault, verify: Outcome<AuthSlice.User>, purgeFault: Fault, removeFault: Fault)
    requires !AuthContext.HasStoredSession(st)
    ensures var s := Boot(Launch(st), readFault, verify, purgeFault, removeFault);
      s.store == st && !s.context.isAuthenticated && !s.context.isLoading && s.auth == AuthSlice.Initial
      && RootScreen(s) == SignIn
  {
  }

  /** A stored session the server rejects is purged from storage and ends
      unauthenticated. */
  lemma BootRejectedPurges(st: Store, e: Thrown, purgeFault: Fault)
    requires AuthContext.HasStoredSession(st)
    ensures var s := Boot(Launch(st), NoFault, Threw(e), purgeFault, NoFault);
      && AuthTokenKey !in s.store && UserDataKey !in s.store
      && !s.context.isAuthenticated && !s.context.isLoading && RootScreen(s) == SignIn
  {
  }

  /** A verified stored session authenticates both flags; the Redux user is
      the one the server returned, not the stored snapshot, and the Redux
      slice ends with token, user and flag in agreement. */
  lemma {:induction false} BootVerifiedAuthenticates(st: Store, u: AuthSlice.User, purgeFault: Fault, removeFault: Fault)
    requires AuthContext.HasStoredSession(st)
    ensures var s := Boot(Launch(st), NoFault, Ok(u), purgeFault, removeFault);
      && s.store == st
      && s.context == AuthContext.Context(true, false) && RootScreen(s) == MainTabs
      && s.auth.token == Some(st[AuthTokenKey]) && s.auth.user == Some(u) && s.auth.isAuthenticated
      && AuthSlice.Consistent(s.auth)
  {
    var c := AuthContext.CheckAuthStatus(st, NoFault, Ok(u), purgeFault, removeFault);
    var actions := c.dispatched;
    assert actions[1..][1..] == [];
    var a1 := AuthSlice.Reduce(AuthSlice.Initial, actions[0]);
    assert AuthSlice.ReduceAll(AuthSlice.Initial, actions) == AuthSlice.ReduceAll(a1, actions[1..]);
    assert AuthSlice.ReduceAll(a1, actions[1..]) == AuthSlice.ReduceAll(AuthSlice.Reduce(a1, actions[1]), []);
  }

  /** The login round trip: a successful login persists a session such that,
      after a restart, the check re-authenticates without credentials as
      long as the server still accepts the token, and the Redux slice holds
      the login's token. */
  lemma {:induction false} LoginSurvivesRestart(s: Session, resp: AuthSlice.AuthResponse, u: AuthSlice.User, purgeFault: Fault)
    requires resp.token != ""
    ensures var after := Login(s, Ok(resp), purgeFault, NoFault);
      var restarted := Boot(Launch(after.store), NoFault, Ok(u), purgeFault, NoFault);
      && restarted.context.isAuthenticated
      && RootScreen(restarted) == MainTabs
      && restarted.store == after.store
      && restarted.auth.token == Some(resp.token)
      && restarted.auth.user == Some(u)
  {
    var after := Login(s, Ok(resp), purgeFault, NoFault);
    assert GetItem(after.store, AuthTokenKey) == Some(resp.token);
    assert GetItem(after.store, UserDataKey) == Some(AuthApi.Serialise(resp.user));
    assert AuthContext.HasStoredSession(after.store);
    BootVerifiedAuthenticates(after.store, u, purgeFault, NoFault);
  }

  /** A successful login authenticates the Redux slice but not the
      provider's flag, so the root keeps showing the sign-in screens. */
  lemma LoginLeavesRootScreen(s: Session, resp: AuthSlice.AuthResponse, purgeFault: Fault)
    requires s.context == AuthContext.Context(false, false)
    ensures var after := Login(s, Ok(resp), purgeFault, NoFault);
      && after.auth.isAuthenticated
      && !after.context.isAuthenticated
      && RootScreen(after) == SignIn
  {
  }

  /** The login thunk as evidently intended: the same, except that a login
      which resolves also raises the provider's flag. */
  function LoginIntended(s: Session, response: Outcome<AuthSlice.AuthResponse>, purgeFault: Fault, writeFault: Fault): (r: Session)
    ensures r.store == Login(s, response, purgeFault, writeFault).store
    ensures r.auth == Login(s, response, purgeFault, writeFault).auth
    ensures r.context.isLoading == s.context.isLoading
    ensures r.context.isAuthenticated <==> s.context.isAuthenticated || (response.Ok? && !Throws(writeFault, 2))
  {
    var l := Login(s, response, purgeFault, writeFault);
    var resolved := AuthApi.Authenticate(s.store, response, purgeFault, writeFault).result.Ok?;
    l.(context := l.context.(isAuthenticated := l.context.isAuthenticated || resolved))
  }

  /** With the intended login, the screen follows the outcome: a login that
      succeeds (response and both writes) shows the main tabs, and one whose
      request fails leaves the root where it was. */
  lemma IntendedLoginShowsMainTabs(s: Session, response: Outcome<AuthSlice.AuthResponse>, purgeFault: Fault, writeFault: Fault)
    requires !s.context.isLoading
    ensures var r := LoginIntended(s, response, purgeFault, writeFault);
      && (response.Ok? && !Throws(writeFault, 2) ==> r.auth.isAuthenticated && RootScreen(r) == MainTabs)
      && (response.Threw? ==> RootScreen(r) == RootScreen(s))
  {
  }
}

=== FILE: auth_screens.dfy ===
/** The e-mail rule the three signed-out screens share. An error message of
    `""` means "no error", as in the screens' state. */
module AuthForms {
  import opened Text

  const EmailRequired := "Email is required"
  const EmailInvalid := "Please enter a valid email"

  /** Blank first, then the unanchored `\S+@\S+\.\S+` test on the untrimmed
      input. The only accepted inputs are those with an e-mail shape, since
      such a string is never blank. */
  function EmailError(email: string): (r: string)
    ensures r == "" <==> EmailShape(email)
    ensures r == EmailRequired <==> IsBlank(email)
    ensures r in {"", EmailRequired, EmailInvalid}
  {
    if IsBlank(email) then EmailRequired
    else if !EmailShape(email) then EmailInvalid
    else ""
  }

  /** An accepted address is still accepted, and not blank, once trimmed,
      which is the form the screens send it in. */
  lemma TrimmedEmailAccepted(email: string)
    requires EmailError(email) == ""
    ensures EmailError(Trim(email)) == ""
    ensures Trim(email) != []
  {
    TrimKeepsEmailShape(email);
    EmailShapeNotBlank(Trim(email));
  }
}

/** The sign-in screen's validation and submission. */
module LoginScreen {
  import opened Base
  import opened Text
  import AuthForms

  datatype Form = Form(email: string, password: string)
  datatype Errors = Errors(email: string, password: string)

  const PasswordRequired := "Password is required"
  const PasswordTooShort := "Password must be at least 6 characters"
  const MinPasswordLength := 6
  const FailureFallback := "Please try again"

  /** Blank after trimming first; the length test counts the UTF-16 code
      units of the untrimmed input. */
  function PasswordError(password: string): (r: string)
    ensures r == "" <==> !IsBlank(password) && Utf16Length(password) >= MinPasswordLength
    ensures r == PasswordRequired <==> IsBlank(password)
    ensures r == PasswordTooShort <==> !IsBlank(password) && Utf16Length(password) < MinPasswordLength
  {
    if IsBlank(password) then PasswordRequired
    else if Utf16Length(password) < MinPasswordLength then PasswordTooShort
    else ""
  }

  /** `validateForm`: both fields are checked, each on its own, and the form
      passes exactly when the e-mail has the expected shape and the password
      is non-blank and long enough. */
  function Validate(f: Form): (r: Errors)
    ensures r.email == AuthForms.EmailError(f.email)
    ensures r.password == PasswordError(f.password)
    ensures Passes(r) <==> EmailShape(f.email) && !IsBlank(f.password) && Utf16Length(f.password) >= MinPasswordLength
  {
    Errors(AuthForms.EmailError(f.email), PasswordError(f.password))
  }

  predicate Passes(e: Errors) {
    e.email == "" && e.password == ""
  }

  datatype Credentials = Credentials(email: string, password: string)

  /** `handleLogin`'s request: nothing when validation fails, otherwise the
      trimmed e-mail and the password exactly as typed. */
  function Request(f: Form): (r: Option<Credentials>)
    ensures r.Some? <==> EmailShape(f.email) && !IsBlank(f.password) && Utf16Length(f.password) >= MinPasswordLength
    ensures r.Some? ==> r.value.email == Trim(f.email) && r.value.password == f.password
  {
    if Passes(Validate(f)) then Some(Credentials(Trim(f.email), f.password)) else None
  }

  /** The alert a rejected login shows: the error's message, or a fixed
      fallback when it has none. */
  function FailureAlert<T>(result: Outcome<T>): (r: Option<string>)
    ensures r.Some? <==> result.Threw?
    ensures r.Some? && Truthy(result.error.message) ==> r.value == result.error.message.value
    ensures r.Some? && !Truthy(result.error.message) ==> r.value == FailureFallback
  {
    if result.Threw? then Some(MessageOr(result.error.message, FailureFallback)) else None
  }

  /** What the screen sends would pass the screen's own validation again,
      unchanged: trimming is the only rewrite and it is idempotent. */
  lemma RequestStable(f: Form)
    requires Request(f).Some?
    ensures var c := Request(f).value;
      Request(Form(c.email, c.password)) == Some(c)
  {
    AuthForms.TrimmedEmailAccepted(f.email);
    TrimIdempotent(f.email);
  }

  /** The emptiness test trims but the length test does not: every
      non-blank password of six code units or more passes, surrounding spaces
      included, so some accepted passwords have fewer than six code units
      once trimmed ("  abcd"); and every all-space password is "required",
      however long. */
  lemma PaddedPasswordCounts()
    ensures forall p | !IsBlank(p) && Utf16Length(p) >= MinPasswordLength :: PasswordError(p) == ""
    ensures forall p | AllSpace(p) :: PasswordError(p) == PasswordRequired
    ensures exists p :: PasswordError(p) == "" && Utf16Length(Trim(p)) < MinPasswordLength
  {
    var w := "  abcd";
    assert !IsSpace(w[2]);
    assert Trim(w) == "abcd" by {
      assert "  " + "abcd" == w;
      TrimPadded("  ", "abcd");
    }
    assert PasswordError(w) == "" && Utf16Length(Trim(w)) < MinPasswordLength;
  }
}

/** The account-creation screen: six fields, a per-field error map that
    holds only failing fields, and an edit that hides the edited field's
    error. */
module SignupScreen {
  import opened Base
  import opened Text
  import AuthForms
  import FieldErrors
  import LoginScreen

  datatype Field = FirstName | LastName | Username | Email | Password | ConfirmPassword

  datatype Form = Form(
    firstName: string,
    lastName: string,
    username: string,
    email: string,
    password: string,
    confirmPassword: string)

  const Empty := Form("", "", "", "", "", "")

  function Get(f: Form, field: Field): string {
    match field
    case FirstName => f.firstName
    case LastName => f.lastName
    case Username => f.username
    case Email => f.email
    case Password => f.password
    case ConfirmPassword => f.confirmPassword
  }

  /** `{ ...prev, [field]: value }`. */
  function Set(f: Form, field: Field, value: string): (r: Form)
    ensures Get(r, field) == value
    ensures forall g | g != field :: Get(r, g) == Get(f, g)
  {
    match field
    case FirstName => f.(firstName := value)
    case LastName => f.(lastName := value)
    case Username => f.(username := value)
    case Email => f.(email := value)
    case Password => f.(password := value)
    case ConfirmPassword => f.(confirmPassword := value)
  }

  type Errors = FieldErrors.Errors<Field>

  const FirstNameRequired := "First name is required"
  const LastNameRequired := "Last name is required"
  const UsernameRequired := "Username is required"
  const UsernameTooShort := "Username must be at least 3 characters"
  const UsernameInvalid := "Username can only contain letters, numbers, and underscores"
  const PasswordRequired := "Password is required"
  const PasswordTooShort := "Password must be at least 6 characters"
  const ConfirmRequired := "Please confirm your password"
  const ConfirmMismatch := "Passwords do not match"
  const MinUsernameLength := 3
  const MinPasswordLength := 6
  const FailureFallback := "Please try again"

  /** Blank, then too short, then outside `[a-zA-Z0-9_]`; length (in UTF-16
      code units) and characters are judged on the untrimmed input. */
  function UsernameError(u: string): (r: string)
    ensures r == "" <==> WordChars(u) && Utf16Length(u) >= MinUsernameLength
    ensures r == UsernameRequired <==> IsBlank(u)
    ensures r == UsernameTooShort <==> !IsBlank(u) && Utf16Length(u) < MinUsernameLength
    ensures r == UsernameInvalid <==> !IsBlank(u) && Utf16Length(u) >= MinUsernameLength && !WordChars(u)
  {
    if IsBlank(u) then
      assert u == [] || IsSpace(u[0]);
      UsernameRequired
    else if Utf16Length(u) < MinUsernameLength then UsernameTooShort
    else if !WordChars(u) then UsernameInvalid
    else ""
  }

  /** Emptiness is tested without trimming, unlike on the sign-in screen. */
  function PasswordError(p: string): (r: string)
    ensures r == "" <==> Utf16Length(p) >= MinPasswordLength
    ensures r == PasswordRequired <==> p == ""
    ensures r == PasswordTooShort <==> p != "" && Utf16Length(p) < MinPasswordLength
  {
    if p == "" then PasswordRequired
    else if Utf16Length(p) < MinPasswordLength then PasswordTooShort
    else ""
  }

  function ConfirmError(p: string, c: string): (r: string)
    ensures r == "" <==> c != "" && c == p
    ensures r == ConfirmRequired <==> c == ""
    ensures r == ConfirmMismatch <==> c != "" && c != p
  {
    if c == "" then ConfirmRequired
    else if p != c then ConfirmMismatch
    else ""
  }

  /** The message for one field, `""` when it passes. */
  function FieldError(f: Form, field: Field): string {
    match field
    case FirstName => if IsBlank(f.firstName) then FirstNameRequired else ""
    case LastName => if IsBlank(f.lastName) then LastNameRequired else ""
    case Username => UsernameError(f.username)
    case Email => AuthForms.EmailError(f.email)
    case Password => PasswordError(f.password)
    case ConfirmPassword => ConfirmError(f.password, f.confirmPassword)
  }

  const AllFields := {FirstName, LastName, Username, Email, Password, ConfirmPassword}

  lemma AllFieldsListed(g: Field)
    ensures g in AllFields
  {
  }

  /** `validateForm`: a fresh map holding exactly the failing fields, each
      with its message. */
  function Validate(f: Form): (r: Errors)
    ensures forall g :: g in r <==> FieldError(f, g) != ""
    ensures forall g | g in r :: r[g] == FieldError(f, g)
  {
    forall g ensures g in AllFields {
      AllFieldsListed(g);
    }
    FieldErrors.Collect(AllFields, g => FieldError(f, g))
  }

  /** The form is accepted (the error map is empty) exactly when every rule
      holds. */
  lemma ValidateAccepts(f: Form)
    ensures Validate(f) == map[] <==>
      && !IsBlank(f.firstName) && !IsBlank(f.lastName)
      && WordChars(f.username) && Utf16Length(f.username) >= MinUsernameLength
      && EmailShape(f.email)
      && Utf16Length(f.password) >= MinPasswordLength
      && f.confirmPassword == f.password
  {
    var r := Validate(f);
    if r == map[] {
      assert FirstName !in r && LastName !in r && Username !in r;
      assert Email !in r && Password !in r && ConfirmPassword !in r;
    } else {
      var g :| g in r;
      match g
      case FirstName => case LastName => case Username =>
      case Email => case Password => case ConfirmPassword =>
    }
  }

  /** `updateFormData`: the field takes the value and its shown error, if
      any, is dismissed. */
  function Edit(f: Form, e: Errors, field: Field, value: string): (r: (Form, Errors))
    ensures Get(r.0, field) == value
    ensures forall g | g != field :: Get(r.0, g) == Get(f, g)
    ensures !FieldErrors.Shown(r.1, field)
    ensures forall g | g != field :: FieldErrors.Shown(r.1, g) == FieldErrors.Shown(e, g)
  {
    (Set(f, field, value), FieldErrors.Dismiss(e, field))
  }

  /** A name of word characters has no white space to trim. */
  lemma WordCharsUntrimmed(u: string)
    requires WordChars(u)
    ensures Trim(u) == u
  {
    assert IsWordChar(u[0]) && IsWordChar(u[|u| - 1]);
    TrimUntouched(u);
  }

  datatype Request = Request(email: string, password: string, username: string, firstName: string, lastName: string)

  /** `handleSignup`'s request: nothing when validation fails, otherwise the
      trimmed fields and the password as typed. */
  function SignupRequest(f: Form): (r: Option<Request>)
    ensures r.Some? <==> Validate(f) == map[]
    ensures r.Some? ==> WordChars(f.username)
    ensures r.Some? ==>
      && r.value.password == f.password
      && r.value.email == Trim(f.email) && EmailShape(r.value.email)
      && r.value.firstName == Trim(f.firstName) && r.value.firstName != []
      && r.value.lastName == Trim(f.lastName) && r.value.lastName != []
      && r.value.username == f.username
  {
    if Validate(f) == map[] then
      ValidateAccepts(f);
      AuthForms.TrimmedEmailAccepted(f.email);
      WordCharsUntrimmed(f.username);
      Some(Request(Trim(f.email), f.password, Trim(f.username), Trim(f.firstName), Trim(f.lastName)))
    else None
  }

  /** The alert `handleSignup` shows once the request settles. */
  datatype Alert = Alert(title: string, message: string)

  const SuccessTitle := "Success"
  const SuccessMessage := "Account created successfully!"
  const FailureTitle := "Signup Failed"

  /** Success, or the failure with the error's message, or the fixed
      fallback when it has none. */
  function SettledAlert<T>(result: Outcome<T>): (r: Alert)
    ensures r.title == SuccessTitle <==> result.Ok?
    ensures r.title == FailureTitle <==> result.Threw?
    ensures result.Ok? ==> r.message == SuccessMessage
    ensures result.Threw? && Truthy(result.error.message) ==> r.message == result.error.message.value
    ensures result.Threw? && !Truthy(result.error.message) ==> r.message == FailureFallback
  {
    match result
    case Ok(_) => Alert(SuccessTitle, SuccessMessage)
    case Threw(e) => Alert(FailureTitle, MessageOr(e.message, FailureFallback))
  }

  /** Editing every field with the value already there and then validating
      gives the same verdict: edits change the shown errors, never the
      validation, which always starts from a fresh map. */
  lemma ValidationIgnoresShownErrors(f: Form, e: Errors, field: Field)
    ensures Validate(Edit(f, e, field, Get(f, field)).0) == Validate(f)
  {
    var g := Set(f, field, Get(f, field));
    assert forall h :: Get(g, h) == Get(f, h);
    assert g == f by {
      assert Get(g, FirstName) == f.firstName && Get(g, LastName) == f.lastName;
      assert Get(g, Username) == f.username && Get(g, Email) == f.email;
      assert Get(g, Password) == f.password && Get(g, ConfirmPassword) == f.confirmPassword;
    }
  }

  /** Lengths are JavaScript's: three keys (each outside the Basic
      Multilingual Plane) are six code units, a long enough password, and two
      guitars are four, long enough for a user name, which is then refused
      for its characters. */
  lemma LengthsCountCodeUnits()
    ensures LoginScreen.PasswordError("\U{1F511}\U{1F511}\U{1F511}") == ""
    ensures PasswordError("\U{1F511}\U{1F511}\U{1F511}") == ""
    ensures UsernameError("\U{1F3B8}\U{1F3B8}") == UsernameInvalid
  {
  }

  /** Six spaces pass the sign-up password rules but are refused by the
      sign-in screen, so such an account cannot sign in through the form. */
  lemma SpacePasswordLocksOut()
    ensures PasswordError("      ") == "" && ConfirmError("      ", "      ") == ""
    ensures LoginScreen.PasswordError("      ") != ""
  {
    assert AllSpace("      ");
  }

  /** The password rule as evidently intended: the same emptiness test as on
      the sign-in screen (blank after trimming). */
  function PasswordErrorIntended(p: string): (r: string)
    ensures r == "" <==> !IsBlank(p) && Utf16Length(p) >= MinPasswordLength
  {
    if IsBlank(p) then PasswordRequired
    else if Utf16Length(p) < MinPasswordLength then PasswordTooShort
    else ""
  }

  /** With the intended rule every password sign-up accepts is one the
      sign-in screen accepts, and the two agree on which are required. */
  lemma IntendedPasswordMatchesLogin(p: string)
    ensures PasswordErrorIntended(p) == "" <==> LoginScreen.PasswordError(p) == ""
    ensures PasswordErrorIntended(p) == PasswordRequired <==> LoginScreen.PasswordError(p) == LoginScreen.PasswordRequired
  {
  }
}

/** The reset-request screen: one field, a loading flag while the request is
    out and a submitted flag once it has been accepted. */
module ForgotPasswordScreen {
  import opened Base
  import opened Text
  import AuthForms

  datatype State = State(email: string, emailError: string, isLoading: bool, isSubmitted: bool)

  const Initial := State("", "", false, false)
  const FailureFallback := "Failed to send reset email. Please try again."

  /** `handleSubmit` under the request's outcome: the address it requested
      a reset for, if any; the alert it raised, if any; and the state
      after. */
  datatype Submission = Submission(state: State, requested: Option<string>, alert: Option<string>)

  /** `validateEmail`: records the e-mail rule's message, clearing it for
      an address of e-mail shape; nothing else changes. */
  function ValidateEmail(s: State): (r: State)
    ensures r.emailError == "" <==> EmailShape(s.email)
    ensures r == s.(emailError := r.emailError)
  {
    s.(emailError := AuthForms.EmailError(s.email))
  }

  function Submit(s: State, response: Outcome<()>): (r: Submission)
    ensures r.requested.Some? <==> EmailShape(s.email)
    ensures r.requested.Some? ==> r.requested.value == Trim(s.email) && AuthForms.EmailError(r.requested.value) == ""
    ensures r.state.email == s.email
    ensures r.state.emailError == AuthForms.EmailError(s.email)
    ensures r.state.isSubmitted <==> s.isSubmitted || (r.requested.Some? && response.Ok?)
    ensures r.requested.Some? ==> !r.state.isLoading
    ensures r.requested.None? ==> r.state.isLoading == s.isLoading && r.alert.None?
    ensures r.alert.Some? <==> r.requested.Some? && response.Threw?
    ensures r.alert.Some? ==> r.alert.value == MessageOr(response.error.message, FailureFallback)
  {
    var v := ValidateEmail(s);
    if v.emailError != "" then Submission(v, None, None)
    else
      AuthForms.TrimmedEmailAccepted(s.email);
      match response
      case Ok(_) => Submission(v.(isLoading := false, isSubmitted := true), Some(Trim(s.email)), None)
      case Threw(e) => Submission(v.(isLoading := false), Some(Trim(s.email)), Some(MessageOr(e.message, FailureFallback)))
  }

  /** Typing into the field: the new text, and any shown error hidden. */
  function EditEmail(s: State, value: string): (r: State)
    ensures r.email == value && r.emailError == ""
    ensures r.isLoading == s.isLoading && r.isSubmitted == s.isSubmitted
  {
    var r := s.(email := value);
    if s.emailError != "" then r.(emailError := "") else r
  }

  /** A failed request can be retried: it leaves the screen unsubmitted and
      idle with no error shown, and the retry sends the same address. */
  lemma FailedSubmitRetries(s: State, e: Thrown, response: Outcome<()>)
    requires !s.isSubmitted && EmailShape(s.email)
    ensures var r := Submit(s, Threw(e));
      && !r.state.isSubmitted && !r.state.isLoading && r.state.emailError == ""
      && Submit(r.state, response).requested == r.requested
  {
  }
}

=== FILE: auth_slice.dfy ===
/** The auth slice of the Redux store: the signed-in user, the bearer token
    and the slice's own `isAuthenticated` flag (distinct from the flag the
    session bootstrap keeps; see `AuthContext`). */
module AuthSlice {
  import opened Base

  datatype User = User(
    id: string,
    email: string,
    username: string,
    firstName: string,
    lastName: string,
    avatar: Option<string>,
    phone: Option<string>,
    location: Option<string>)

  datatype AuthState = AuthState(
    user: Option<User>,
    token: Option<string>,
    isLoading: bool,
    error: Option<string>,
    isAuthenticated: bool)

  const Initial := AuthState(None, None, false, None, false)

  /** What login and signup resolve to. */
  datatype AuthResponse = AuthResponse(user: User, token: string)

  datatype Action =
    | ClearError
    | SetToken(newToken: string)
    | SetUser(newUser: User)
    | LoginPending
    | LoginFulfilled(login: AuthResponse)
    | LoginRejected(loginError: Option<string>)
    | SignupPending
    | SignupFulfilled(signup: AuthResponse)
    | SignupRejected(signupError: Option<string>)
    | LogoutPending
    | LogoutFulfilled
    | LogoutRejected(logoutError: Option<string>)

  const LoginFallback := "Login failed"
  const SignupFallback := "Signup failed"

  /** The slice reducer. The contract says which actions may touch which
      field: the identity only moves on a fulfilled login, signup or logout
      or the two setters, and the loading flag only on login/signup phases. */
  function Reduce(s: AuthState, a: Action): (r: AuthState)
    ensures r.user != s.user ==> a.SetUser? || a.LoginFulfilled? || a.SignupFulfilled? || a.LogoutFulfilled?
    ensures r.token != s.token ==> a.SetToken? || a.LoginFulfilled? || a.SignupFulfilled? || a.LogoutFulfilled?
    ensures r.isLoading != s.isLoading ==>
      a.LoginPending? || a.LoginFulfilled? || a.LoginRejected? || a.SignupPending? || a.SignupFulfilled? || a.SignupRejected?
    ensures r.isAuthenticated != s.isAuthenticated ==> !a.ClearError? && !a.LoginPending? && !a.SignupPending?
    ensures r.error != s.error ==>
      a.ClearError? || a.LoginPending? || a.LoginFulfilled? || a.LoginRejected?
      || a.SignupPending? || a.SignupFulfilled? || a.SignupRejected? || a.LogoutFulfilled?
  {
    match a
    case ClearError => s.(error := None)
    case SetToken(t) => s.(token := Some(t), isAuthenticated := true)
    case SetUser(u) => s.(user := Some(u), isAuthenticated := true)
    case LoginPending => s.(isLoading := true, error := None)
    case LoginFulfilled(resp) =>
      s.(isLoading := false, user := Some(resp.user), token := Some(resp.token), isAuthenticated := true, error := None)
    case LoginRejected(msg) => s.(isLoading := false, error := Some(MessageOr(msg, LoginFallback)))
    case SignupPending => s.(isLoading := true, error := None)
    case SignupFulfilled(resp) =>
      s.(isLoading := false, user := Some(resp.user), token := Some(resp.token), isAuthenticated := true, error := None)
    case SignupRejected(msg) => s.(isLoading := false, error := Some(MessageOr(msg, SignupFallback)))
    case LogoutPending => s
    case LogoutFulfilled => s.(user := None, token := None, isAuthenticated := false, error := None)
    case LogoutRejected(_) => s
  }

  function ReduceAll(s: AuthState, actions: seq<Action>): AuthState
    decreases |actions|
  {
    if actions == [] then s else ReduceAll(Reduce(s, actions[0]), actions[1..])
  }

  /** Pending login or signup: loading, no error, identity untouched. */
  lemma PendingKeepsIdentity(s: AuthState, a: Action)
    requires a.LoginPending? || a.SignupPending?
    ensures var r := Reduce(s, a);
      r.isLoading && r.error.None? && r.user == s.user && r.token == s.token && r.isAuthenticated == s.isAuthenticated
  {
  }

  /** Fulfilled login or signup installs the response's user and token and
      authenticates. */
  lemma FulfilledAuthenticates(s: AuthState, resp: AuthResponse)
    ensures forall a | a == LoginFulfilled(resp) || a == SignupFulfilled(resp) ::
      var r := Reduce(s, a);
      r.user == Some(resp.user) && r.token == Some(resp.token) && r.isAuthenticated && !r.isLoading && r.error.None?
  {
  }

  /** Rejected login or signup reports the error's message or the fixed
      fallback and leaves the identity alone. */
  lemma RejectedKeepsIdentity(s: AuthState, msg: Option<string>)
    ensures var r := Reduce(s, LoginRejected(msg));
      && !r.isLoading && r.user == s.user && r.token == s.token && r.isAuthenticated == s.isAuthenticated
      && r.error == Some(if Truthy(msg) then msg.value else "Login failed")
    ensures var r := Reduce(s, SignupRejected(msg));
      && !r.isLoading && r.user == s.user && r.token == s.token && r.isAuthenticated == s.isAuthenticated
      && r.error == Some(if Truthy(msg) then msg.value else "Signup failed")
  {
  }

  /** Fulfilled logout forgets the identity and the error but not the
      loading flag; its pending and rejected phases change nothing. */
  lemma LogoutForgets(s: AuthState, msg: Option<string>)
    ensures var r := Reduce(s, LogoutFulfilled);
      r.user.None? && r.token.None? && !r.isAuthenticated && r.error.None? && r.isLoading == s.isLoading
    ensures Reduce(s, LogoutPending) == s && Reduce(s, LogoutRejected(msg)) == s
  {
  }

  /** `setToken` leaves the user and `setUser` leaves the token, yet both
      authenticate. */
  lemma SettersAreIndependent(s: AuthState, t: string, u: User)
    ensures Reduce(s, SetToken(t)).user == s.user && Reduce(s, SetToken(t)).isAuthenticated
    ensures Reduce(s, SetUser(u)).token == s.token && Reduce(s, SetUser(u)).isAuthenticated
    ensures Reduce(s, ClearError) == s.(error := None)
  {
  }

  /** The flag, the token and the user agree. */
  predicate Consistent(s: AuthState) {
    (s.isAuthenticated <==> s.token.Some?) && (s.token.Some? <==> s.user.Some?)
  }

  /** Every action but the two setters keeps the three in agreement. */
  lemma ReducePreservesConsistent(s: AuthState, a: Action)
    requires Consistent(s) && !a.SetToken? && !a.SetUser?
    ensures Consistent(Reduce(s, a))
  {
  }

  /** From the initial state, any run without the setters stays consistent. */
  lemma {:induction false} RunsWithoutSettersStayConsistent(s: AuthState, actions: seq<Action>)
    requires Consistent(s)
    requires forall k | 0 <= k < |actions| :: !actions[k].SetToken? && !actions[k].SetUser?
    ensures Consistent(ReduceAll(s, actions))
    decreases |actions|
  {
    if actions != [] {
      ReducePreservesConsistent(s, actions[0]);
      RunsWithoutSettersStayConsistent(Reduce(s, actions[0]), actions[1..]);
    }
  }

  /** ...but `setToken` alone breaks it: authenticated with no user. */
  lemma SetTokenBreaksConsistency(t: string)
    ensures Consistent(Initial)
    ensures !Consistent(Reduce(Initial, SetToken(t)))
    ensures Reduce(Initial, SetToken(t)).isAuthenticated && Reduce(Initial, SetToken(t)).user.None?
  {
  }
}

=== FILE: base.dfy ===
/** Shared vocabulary: optional values, the JavaScript error object as the
    model reads it, and the outcome of an awaited call. */
module Base {

  /** `T | null` / `T | undefined`. */
  datatype Option<+T> = None | Some(value: T) {
    function GetOr(default: T): T {
      match this
      case Some(v) => v
      case None => default
    }
  }

  /** A thrown error, reduced to the two properties the code reads:
      `error.response?.status` and `error.message`. */
  datatype Thrown = Thrown(status: Option<int>, message: Option<string>)

  /** The settled state of an awaited promise. */
  datatype Outcome<+T> = Ok(value: T) | Threw(error: Thrown)

  /** JavaScript truthiness of a `string | null`: present and non-empty. */
  predicate Truthy(s: Option<string>) {
    s.Some? && s.value != ""
  }

  /** `message || fallback`, the idiom every rejected thunk case uses. */
  function MessageOr(message: Option<string>, fallback: string): string {
    if Truthy(message) then message.value else fallback
  }
}

=== FILE: chat_screens.dfy ===
/** The other side of a conversation, as both chat screens find it: the
    first participant whose id is not the signed-in user's. With no user
    signed in every participant qualifies. */
module Participants {
  import opened Base
  import Lists

  function NotMe(userId: Option<string>): string -> bool {
    (p: string) => userId.None? || p != userId.value
  }

  /** `participants.find(id => id !== user?.id)`. */
  function Other(participants: seq<string>, userId: Option<string>): (r: Option<string>)
    ensures r.Some? ==> r.value in participants && NotMe(userId)(r.value)
    ensures r.None? <==> forall k | 0 <= k < |participants| :: userId == Some(participants[k])
    ensures forall i | 0 <= i < |participants| && NotMe(userId)(participants[i]) ::
      (forall k | 0 <= k < i :: !NotMe(userId)(participants[k])) ==> r == Some(participants[i])
  {
    match Lists.FindIndex(participants, NotMe(userId))
    case None => None
    case Some(i) => Some(participants[i])
  }
}

/** The conversation list: a display name per conversation, a search box
    over those names and an unread badge. */
module ChatListScreen {
  import opened Base
  import opened Text
  import Lists
  import ChatSlice
  import Participants

  const NamePrefix := "User "
  const UnknownName := "Unknown"

  /** `getParticipantName`: "User " and the last four characters of the
      other participant's id, or "User Unknown" when there is none (or it is
      empty). */
  function ParticipantName(c: ChatSlice.Conversation, userId: Option<string>): (r: string)
    ensures |NamePrefix| <= |r| <= |NamePrefix| + 7 && r[..|NamePrefix|] == NamePrefix
    ensures var other := Participants.Other(c.participants, userId);
      var tail := r[|NamePrefix|..];
      if other.Some? && other.value != ""
      then |tail| == (if |other.value| < 4 then |other.value| else 4)
        && tail == other.value[|other.value| - |tail|..]
      else tail == UnknownName
  {
    var other := Participants.Other(c.participants, userId);
    var tail := if other.Some? then LastFour(other.value) else "";
    NamePrefix + (if tail != "" then tail else UnknownName)
  }

  /** The case-insensitive name match a non-blank query applies. The query
      itself is lower-cased but not trimmed. */
  function Matches(query: string, userId: Option<string>): ChatSlice.Conversation -> bool {
    (c: ChatSlice.Conversation) => Contains(Lower(ParticipantName(c, userId)), Lower(query))
  }

  /** The list the screen shows: every conversation for a blank query,
      otherwise those whose name contains the query, in store order. */
  function Visible(cs: seq<ChatSlice.Conversation>, query: string, userId: Option<string>): (r: seq<ChatSlice.Conversation>)
    ensures IsBlank(query) ==> r == cs
    ensures !IsBlank(query) ==> r == Lists.Keep(cs, Matches(query, userId))
    ensures |r| <= |cs| && multiset(r) <= multiset(cs)
  {
    if IsBlank(query) then cs else Lists.Keep(cs, Matches(query, userId))
  }

  /** The search ignores the query's case: the list for a query equals the
      list for its lower-cased form. */
  lemma SearchIgnoresCase(cs: seq<ChatSlice.Conversation>, query: string, userId: Option<string>)
    ensures Visible(cs, Lower(query), userId) == Visible(cs, query, userId)
  {
    LowerKeepsBlank(query);
    LowerIdempotent(query);
    if !IsBlank(query) {
      Lists.KeepAgree(cs, Matches(Lower(query), userId), Matches(query, userId));
    }
  }

  /** Every name contains "user", so a query of "user" in any case hides
      nothing. */
  lemma QueryUserShowsAll(cs: seq<ChatSlice.Conversation>, userId: Option<string>)
    ensures Visible(cs, "USER", userId) == cs
  {
    assert Lower("USER") == "user";
    forall k | 0 <= k < |cs| ensures Matches("USER", userId)(cs[k]) {
      NameStartsWithUser(cs[k], userId);
    }
    assert !IsSpace("USER"[0]);
    Lists.KeepAll(cs, Matches("USER", userId));
  }

  lemma NameStartsWithUser(c: ChatSlice.Conversation, userId: Option<string>)
    ensures OccursAt(Lower(ParticipantName(c, userId)), "user", 0)
  {
    var name := ParticipantName(c, userId);
    assert name[..|NamePrefix|] == NamePrefix;
    assert name[0] == 'U' && name[1] == 's' && name[2] == 'e' && name[3] == 'r';
    var lower := Lower(name);
    assert lower[0] == 'u' && lower[1] == 's' && lower[2] == 'e' && lower[3] == 'r';
    assert lower[..4] == "user";
  }

  datatype Badge = NoBadge | CountBadge(count: int) | Overflow

  /** The unread badge: hidden at zero or below, the count up to 99, "99+"
      above. */
  function BadgeOf(unreadCount: int): (r: Badge)
    ensures r.NoBadge? <==> unreadCount <= 0
    ensures r.Overflow? <==> unreadCount > 99
    ensures r.CountBadge? ==> 1 <= r.count <= 99 && r.count == unreadCount
  {
    if unreadCount <= 0 then NoBadge else if unreadCount > 99 then Overflow else CountBadge(unreadCount)
  }

  /** Once a conversation is marked read its badge disappears, and the
      badges of the others stay as they were. */
  lemma MarkAsReadHidesBadge(s: ChatSlice.ChatState, id: string, i: nat)
    requires i < |s.conversations| && s.conversations[i].id == id
    requires forall k | 0 <= k < i :: s.conversations[k].id != id
    ensures var r := ChatSlice.Reduce(s, ChatSlice.MarkAsReadFulfilled(id));
      && BadgeOf(r.conversations[i].unreadCount) == NoBadge
      && forall k | 0 <= k < |s.conversations| && k != i ::
           BadgeOf(r.conversations[k].unreadCount) == BadgeOf(s.conversations[k].unreadCount)
  {
    ChatSlice.MarkAsReadEffect(s, id);
    var p := ChatSlice.HasId(Some(id));
    assert p(s.conversations[i]);
    assert forall k | 0 <= k < i :: !p(s.conversations[k]);
    match Lists.FindIndex(s.conversations, p)
    case None =>
    case Some(j) =>
      assert j == i;
  }
}

/** One conversation: sending a message, whose bubbles are one's own, and the
    read indicator on them. */
module ChatScreen {
  import opened Base
  import opened Text
  import ChatSlice
  import Participants

  /** The message box and the sending flag. */
  datatype Input = Input(text: string, isSending: bool)

  const SendFailedAlert := "Failed to send message"

  /** `getReceiverId`: the other participant of the open conversation, or
      `""` when there is no open conversation or no other participant. */
  function ReceiverId(current: Option<ChatSlice.Conversation>, userId: Option<string>): (r: string)
    ensures current.None? ==> r == ""
    ensures current.Some? && Participants.Other(current.value.participants, userId).Some? ==>
      r == Participants.Other(current.value.participants, userId).value
    ensures r != "" ==> current.Some? && r in current.value.participants && (userId.None? || r != userId.value)
  {
    if current.None? then ""
    else
      match Participants.Other(current.value.participants, userId)
      case None => ""
      case Some(p) => p
  }

  /** What the send thunk is called with. */
  datatype Request = Request(text: string, receiverId: string, conversationId: string)

  /** `handleSendMessage` under the send's outcome: the box after it, the
      request made, the actions the thunk dispatched and the alert shown. */
  datatype Sent = Sent(input: Input, request: Option<Request>, dispatched: seq<ChatSlice.Action>, alert: Option<string>)

  function HandleSend(
    box: Input, userId: Option<string>, current: Option<ChatSlice.Conversation>,
    conversationId: string, result: Outcome<ChatSlice.SendResponse>): (r: Sent)
    ensures r.request.None? <==> IsBlank(box.text) || userId.None?
    ensures r.request.None? ==> r == Sent(box, None, [], None)
    ensures r.request.Some? ==>
      && r.request.value == Request(Trim(box.text), ReceiverId(current, userId), conversationId)
      && r.request.value.text != []
      && !r.input.isSending
      && |r.dispatched| == 2 && r.dispatched[0] == ChatSlice.SendMessagePending
      && (result.Ok? ==> r.input.text == "" && r.dispatched[1] == ChatSlice.SendMessageFulfilled(result.value) && r.alert.None?)
      && (result.Threw? ==> r.input.text == box.text && r.dispatched[1].SendMessageRejected? && r.alert == Some(SendFailedAlert))
  {
    if IsBlank(box.text) || userId.None? then Sent(box, None, [], None)
    else
      var request := Request(Trim(box.text), ReceiverId(current, userId), conversationId);
      match result
      case Ok(resp) =>
        Sent(Input("", false), Some(request), [ChatSlice.SendMessagePending, ChatSlice.SendMessageFulfilled(resp)], None)
      case Threw(e) =>
        Sent(box.(isSending := false), Some(request), [ChatSlice.SendMessagePending, ChatSlice.SendMessageRejected(e.message)], Some(SendFailedAlert))
  }

  /** Sending, end to end: a successful send empties the box and appends the
      server's message to the store's messages; a failed one keeps the typed
      text for a retry and leaves the store exactly as it was. */
  lemma SendReachesStore(box: Input, userId: Option<string>, s: ChatSlice.ChatState, conversationId: string, result: Outcome<ChatSlice.SendResponse>)
    requires !IsBlank(box.text) && userId.Some?
    ensures var r := HandleSend(box, userId, s.currentConversation, conversationId, result);
      var after := ChatSlice.ReduceAll(s, r.dispatched);
      && (result.Ok? ==> r.input.text == "" && after.messages == s.messages + [result.value.message])
      && (result.Threw? ==> r.input.text == box.text && after == s)
  {
    var r := HandleSend(box, userId, s.currentConversation, conversationId, result);
    match result
    case Ok(resp) =>
      assert r.dispatched == [ChatSlice.SendMessagePending, ChatSlice.SendMessageFulfilled(resp)];
      ChatSlice.ReduceTwo(s, ChatSlice.SendMessagePending, ChatSlice.SendMessageFulfilled(resp));
      assert ChatSlice.Reduce(s, ChatSlice.SendMessagePending) == s;
    case Threw(e) =>
      assert r.dispatched == [ChatSlice.SendMessagePending, ChatSlice.SendMessageRejected(e.message)];
      ChatSlice.FailedSendChangesNothing(s, e.message);
  }

  /** `message.senderId === user?.id`: with no user nothing is one's own. */
  predicate IsOwn(m: ChatSlice.Message, userId: Option<string>) {
    userId.Some? && m.senderId == userId.value
  }

  /** The tick on a bubble: none on others' messages, one tick on one's own
      unread message, two once it is read. */
  datatype Indicator = NoIndicator | Check | CheckAll

  function ReadIndicator(m: ChatSlice.Message, userId: Option<string>): (r: Indicator)
    ensures r.NoIndicator? <==> !IsOwn(m, userId)
    ensures r.CheckAll? <==> IsOwn(m, userId) && m.isRead
  {
    if !IsOwn(m, userId) then NoIndicator else if m.isRead then CheckAll else Check
  }

  const LoadFailedAlert := "Failed to load messages"

  /** What opening a conversation does: the effect starts `fetchMessages`
      and then `markAsRead`, and the two settle in an order the network
      decides. A failed fetch raises an alert; a failed mark-read is only
      logged. An empty conversation id starts nothing. */
  datatype Opened = Opened(dispatched: seq<ChatSlice.Action>, alert: Option<string>)

  /** The action the message fetch settles with. */
  function FetchSettled(fetched: Outcome<ChatSlice.MessagesResponse>): (r: ChatSlice.Action)
    ensures fetched.Ok? <==> r.FetchMessagesFulfilled?
    ensures fetched.Ok? ==> r.page == fetched.value
    ensures fetched.Threw? ==> r == ChatSlice.FetchMessagesRejected(fetched.error.message)
  {
    match fetched
    case Ok(resp) => ChatSlice.FetchMessagesFulfilled(resp)
    case Threw(e) => ChatSlice.FetchMessagesRejected(e.message)
  }

  /** The action the mark-read settles with. */
  function MarkSettled(conversationId: string, marked: Outcome<()>): (r: ChatSlice.Action)
    ensures marked.Ok? <==> r == ChatSlice.MarkAsReadFulfilled(conversationId)
    ensures marked.Threw? ==> r == ChatSlice.MarkAsReadRejected(marked.error.message)
  {
    match marked
    case Ok(_) => ChatSlice.MarkAsReadFulfilled(conversationId)
    case Threw(e) => ChatSlice.MarkAsReadRejected(e.message)
  }

  function Open(
    conversationId: string, fetched: Outcome<ChatSlice.MessagesResponse>,
    marked: Outcome<()>, markSettlesFirst: bool): (r: Opened)
    ensures conversationId == "" ==> r == Opened([], None)
    ensures conversationId != "" ==>
      && |r.dispatched| == 4
      && r.dispatched[0] == ChatSlice.FetchMessagesPending && r.dispatched[1] == ChatSlice.MarkAsReadPending
      && r.dispatched[if markSettlesFirst then 3 else 2] == FetchSettled(fetched)
      && r.dispatched[if markSettlesFirst then 2 else 3] == MarkSettled(conversationId, marked)
      && (r.alert.Some? <==> fetched.Threw?)
      && forall k | 0 <= k < 4 :: ChatSlice.Dispatched(r.dispatched[k])
  {
    if conversationId == "" then Opened([], None)
    else
      var fetch := FetchSettled(fetched);
      var mark := MarkSettled(conversationId, marked);
      var settle := if markSettlesFirst then [mark, fetch] else [fetch, mark];
      Opened([ChatSlice.FetchMessagesPending, ChatSlice.MarkAsReadPending] + settle,
             if fetched.Threw? then Some(LoadFailedAlert) else None)
  }

  /** With no open conversation, a settled mark-read leaves the messages and
      the open conversation alone. */
  lemma MarkWhileClosed(x: ChatSlice.ChatState, conversationId: string, marked: Outcome<()>)
    requires x.currentConversation.None?
    ensures var y := ChatSlice.Reduce(x, MarkSettled(conversationId, marked));
      y.messages == x.messages && y.currentConversation.None?
  {
    if marked.Ok? {
      ChatSlice.MarkAsReadEffect(x, conversationId);
    }
  }

  /** `getReceiverId` as the program runs it: whatever the user dispatched
      since start-up, there is no open conversation, so every message is
      sent with an empty receiver id. */
  lemma ReceiverAlwaysEmpty(actions: seq<ChatSlice.Action>, userId: Option<string>)
    requires forall k | 0 <= k < |actions| :: ChatSlice.Dispatched(actions[k])
    ensures ReceiverId(ChatSlice.ReduceAll(ChatSlice.Initial, actions).currentConversation, userId) == ""
  {
    ChatSlice.NoConversationEverOpens(ChatSlice.Initial, actions);
  }

  /** Opening a conversation as written, from the state the program reaches
      (no open conversation): the messages are the fetched page with the read
      flags the server sent, in either settle order, even when the mark-read
      succeeds; nothing is opened, so the receiver id stays empty. A failed
      fetch keeps the messages that were held. */
  lemma OpeningKeepsReadFlags(
    s: ChatSlice.ChatState, conversationId: string, fetched: Outcome<ChatSlice.MessagesResponse>,
    marked: Outcome<()>, markSettlesFirst: bool, userId: Option<string>)
    requires s.currentConversation.None?
    requires conversationId != ""
    ensures var after := ChatSlice.ReduceAll(s, Open(conversationId, fetched, marked, markSettlesFirst).dispatched);
      && after.currentConversation.None?
      && ReceiverId(after.currentConversation, userId) == ""
      && (fetched.Ok? ==> after.messages == fetched.value.messages)
      && (fetched.Threw? ==> after.messages == s.messages)
  {
    var d := Open(conversationId, fetched, marked, markSettlesFirst).dispatched;
    ChatSlice.NoConversationEverOpens(s, d);
    ChatSlice.ReduceFour(s, d);
    var s2 := ChatSlice.Reduce(ChatSlice.Reduce(s, d[0]), d[1]);
    assert s2.messages == s.messages && s2.currentConversation.None?;
    var s3 := ChatSlice.Reduce(s2, d[2]);
    if markSettlesFirst {
      MarkWhileClosed(s2, conversationId, marked);
      FetchWhileClosed(s3, fetched);
    } else {
      FetchWhileClosed(s2, fetched);
      MarkWhileClosed(s3, conversationId, marked);
    }
  }

  /** With no open conversation, a settled fetch replaces the messages with
      the fetched page, or keeps them when it failed, and opens nothing. */
  lemma FetchWhileClosed(x: ChatSlice.ChatState, fetched: Outcome<ChatSlice.MessagesResponse>)
    requires x.currentConversation.None?
    ensures var y := ChatSlice.Reduce(x, FetchSettled(fetched));
      && y.currentConversation.None?
      && (fetched.Ok? ==> y.messages == fetched.value.messages)
      && (fetched.Threw? ==> y.messages == x.messages)
  {
  }

  /** Opening a conversation with the corrected reducer: when the fetched
      page belongs to the conversation being opened and the mark-read settles
      after it, every message is read, so each of one's own bubbles shows two
      ticks, and the receiver id is the other participant of the fetched
      conversation. When the mark-read settles first, the page is kept as
      the server sent it. */
  lemma OpeningShowsOwnAsRead(
    s: ChatSlice.ChatState, conversationId: string, resp: ChatSlice.MessagesResponse,
    markSettlesFirst: bool, userId: Option<string>)
    requires conversationId != "" && resp.conversation.id == conversationId
    ensures var after := ChatSlice.ReduceAllIntended(s, Open(conversationId, Ok(resp), Ok(()), markSettlesFirst).dispatched);
      && after.currentConversation == Some(resp.conversation)
      && ReceiverId(after.currentConversation, userId) == Participants.Other(resp.conversation.participants, userId).GetOr("")
      && |after.messages| == |resp.messages|
      && (!markSettlesFirst ==>
            && ChatSlice.SameMessagesButRead(resp.messages, after.messages)
            && forall k | 0 <= k < |after.messages| ::
                 after.messages[k].isRead
                 && (IsOwn(after.messages[k], userId) ==> ReadIndicator(after.messages[k], userId) == CheckAll))
      && (markSettlesFirst ==> after.messages == resp.messages)
  {
    var d := Open(conversationId, Ok(resp), Ok(()), markSettlesFirst).dispatched;
    ChatSlice.ReduceFourIntended(s, d);
    var s2 := ChatSlice.ReduceIntended(ChatSlice.ReduceIntended(s, d[0]), d[1]);
    if !markSettlesFirst {
      var s3 := ChatSlice.ReduceIntended(s2, d[2]);
      assert ChatSlice.IsCurrent(s3, conversationId);
      ChatSlice.MarkAsReadEffect(s3, conversationId);
    }
  }
}

=== FILE: chat_slice.dfy ===
/** The chat slice of the Redux store: the conversation list, the open
    conversation's messages, and unread/read bookkeeping. Each thunk's
    pending, fulfilled and rejected action is one `Action` constructor; a
    thunk phase the slice has no case for is a constructor the reducer
    ignores. */
module ChatSlice {
  import opened Base
  import Lists

  datatype MessageKind = TextMessage | ImageMessage | FileMessage

  /** A message. `conversationId` is not declared by the interface but is
      read by `addMessage`, so it is optional here; `metadata` is not modelled. */
  datatype Message = Message(
    id: string,
    text: string,
    senderId: string,
    receiverId: string,
    timestamp: string,
    isRead: bool,
    kind: MessageKind,
    conversationId: Option<string>)

  datatype Conversation = Conversation(
    id: string,
    participants: seq<string>,
    lastMessage: Option<Message>,
    unreadCount: int,
    updatedAt: string,
    productId: Option<string>)

  datatype ChatState = ChatState(
    conversations: seq<Conversation>,
    currentConversation: Option<Conversation>,
    messages: seq<Message>,
    isLoading: bool,
    error: Option<string>,
    isConnected: bool)

  const Initial := ChatState([], None, [], false, None, false)

  /** What the message fetch returns: the page of messages and the
      conversation they belong to. */
  datatype MessagesResponse = MessagesResponse(messages: seq<Message>, conversation: Conversation)

  /** What the send endpoint returns. */
  datatype SendResponse = SendResponse(message: Message, conversationId: string)

  datatype Action =
    | SetCurrentConversation(conversation: Option<Conversation>)
    | AddMessage(message: Message)
    | UpdateMessageStatus(messageId: string, isRead: bool)
    | SetConnectionStatus(connected: bool)
    | ClearMessages
    | FetchConversationsPending
    | FetchConversationsFulfilled(conversations: seq<Conversation>)
    | FetchConversationsRejected(reason: Option<string>)
    | FetchMessagesPending
    | FetchMessagesFulfilled(page: MessagesResponse)
    | FetchMessagesRejected(reason: Option<string>)
    | SendMessagePending
    | SendMessageFulfilled(response: SendResponse)
    | SendMessageRejected(reason: Option<string>)
    | MarkAsReadPending
    | MarkAsReadFulfilled(conversationId: string)
    | MarkAsReadRejected(reason: Option<string>)

  const FetchConversationsFallback := "Failed to fetch conversations"
  const FetchMessagesFallback := "Failed to fetch messages"

  /** `c => c.id === id`, where an absent id matches nothing. */
  function HasId(id: Option<string>): Conversation -> bool {
    (c: Conversation) => id == Some(c.id)
  }

  function WithLastMessage(m: Message): Conversation -> Conversation {
    (c: Conversation) => c.(lastMessage := Some(m), updatedAt := m.timestamp)
  }

  function Unread(c: Conversation): Conversation {
    c.(unreadCount := 0)
  }

  function MessageHasId(id: string): Message -> bool {
    (m: Message) => m.id == id
  }

  function WithRead(isRead: bool): Message -> Message {
    (m: Message) => m.(isRead := isRead)
  }

  function AllRead(ms: seq<Message>): (r: seq<Message>)
    ensures |r| == |ms|
  {
    seq(|ms|, k requires 0 <= k < |ms| => ms[k].(isRead := true))
  }

  /** The conversation `find` locates for `id`, with `lastMessage` and
      `updatedAt` taken from `m`. */
  function TouchConversation(cs: seq<Conversation>, id: Option<string>, m: Message): seq<Conversation> {
    Lists.UpdateFirst(cs, HasId(id), WithLastMessage(m))
  }

  /** Conversation `i` of `r` is conversation `i` of `s` with possibly a new
      last message, update time and unread count: nothing that identifies it
      changes. */
  predicate SameThreads(s: seq<Conversation>, r: seq<Conversation>) {
    && |r| == |s|
    && forall k | 0 <= k < |s| ::
      && r[k].id == s[k].id
      && r[k].participants == s[k].participants
      && r[k].productId == s[k].productId
  }

  /** Message `i` of `r` is message `i` of `s`, except perhaps its read flag. */
  predicate SameMessagesButRead(s: seq<Message>, r: seq<Message>) {
    && |r| == |s|
    && forall k | 0 <= k < |s| :: r[k] == s[k].(isRead := r[k].isRead)
  }

  /** The slice reducer. Its contract states what every action may change:
      only the fetches replace lists, only `setConnectionStatus` and
      `setCurrentConversation` touch their fields, and messages are otherwise
      only appended, cleared or flipped read. */
  function Reduce(s: ChatState, a: Action): (r: ChatState)
    ensures r.isConnected != s.isConnected ==> a.SetConnectionStatus?
    ensures r.currentConversation != s.currentConversation ==> a.SetCurrentConversation?
    ensures !a.FetchConversationsFulfilled? ==> SameThreads(s.conversations, r.conversations)
    ensures !a.FetchMessagesFulfilled? && !a.ClearMessages? ==>
      || SameMessagesButRead(s.messages, r.messages)
      || (|r.messages| == |s.messages| + 1 && r.messages[..|s.messages|] == s.messages)
    ensures r.isLoading != s.isLoading ==>
      || a.FetchConversationsPending? || a.FetchConversationsFulfilled? || a.FetchConversationsRejected?
      || a.FetchMessagesPending? || a.FetchMessagesFulfilled? || a.FetchMessagesRejected?
  {
    match a
    case SetCurrentConversation(c) => s.(currentConversation := c)
    case AddMessage(m) =>
      TouchKeepsThreads(s.conversations, m.conversationId, m);
      s.(messages := s.messages + [m], conversations := TouchConversation(s.conversations, m.conversationId, m))
    case UpdateMessageStatus(id, isRead) =>
      UpdateStatusKeepsMessages(s.messages, id, isRead);
      s.(messages := Lists.UpdateFirst(s.messages, MessageHasId(id), WithRead(isRead)))
    case SetConnectionStatus(b) => s.(isConnected := b)
    case ClearMessages => s.(messages := [])
    case FetchConversationsPending => s.(isLoading := true, error := None)
    case FetchConversationsFulfilled(cs) => s.(isLoading := false, conversations := cs, error := None)
    case FetchConversationsRejected(msg) =>
      s.(isLoading := false, error := Some(MessageOr(msg, FetchConversationsFallback)))
    case FetchMessagesPending => s.(isLoading := true, error := None)
    case FetchMessagesFulfilled(resp) => s.(isLoading := false, messages := resp.messages, error := None)
    case FetchMessagesRejected(msg) =>
      s.(isLoading := false, error := Some(MessageOr(msg, FetchMessagesFallback)))
    case SendMessagePending => s
    case SendMessageFulfilled(resp) =>
      TouchKeepsThreads(s.conversations, Some(resp.conversationId), resp.message);
      s.(messages := s.messages + [resp.message],
         conversations := TouchConversation(s.conversations, Some(resp.conversationId), resp.message))
    case SendMessageRejected(_) => s
    case MarkAsReadPending => s
    case MarkAsReadFulfilled(id) =>
      var cs := Lists.UpdateFirst(s.conversations, HasId(Some(id)), Unread);
      var current := s.currentConversation.Some? && s.currentConversation.value.id == id;
      UnreadKeepsThreads(s.conversations, id);
      s.(conversations := cs, messages := if current then AllRead(s.messages) else s.messages)
    case MarkAsReadRejected(_) => s
  }

  lemma TouchKeepsThreads(cs: seq<Conversation>, id: Option<string>, m: Message)
    ensures SameThreads(cs, TouchConversation(cs, id, m))
  {
    match Lists.FindIndex(cs, HasId(id))
    case None =>
    case Some(i) =>
  }

  lemma UnreadKeepsThreads(cs: seq<Conversation>, id: string)
    ensures SameThreads(cs, Lists.UpdateFirst(cs, HasId(Some(id)), Unread))
  {
    match Lists.FindIndex(cs, HasId(Some(id)))
    case None =>
    case Some(i) =>
  }

  lemma UpdateStatusKeepsMessages(ms: seq<Message>, id: string, isRead: bool)
    ensures SameMessagesButRead(ms, Lists.UpdateFirst(ms, MessageHasId(id), WithRead(isRead)))
  {
    match Lists.FindIndex(ms, MessageHasId(id))
    case None =>
    case Some(i) =>
  }

  /** Applies actions in dispatch order. */
  function ReduceAll(s: ChatState, actions: seq<Action>): ChatState
    decreases |actions|
  {
    if actions == [] then s else ReduceAll(Reduce(s, actions[0]), actions[1..])
  }

  /** Four dispatches in a row are four reductions in a row. */
  lemma ReduceFour(s: ChatState, d: seq<Action>)
    requires |d| == 4
    ensures ReduceAll(s, d) == Reduce(Reduce(Reduce(Reduce(s, d[0]), d[1]), d[2]), d[3])
  {
    var s1 := Reduce(s, d[0]);
    var s2 := Reduce(s1, d[1]);
    var s3 := Reduce(s2, d[2]);
    assert ReduceAll(s, d) == ReduceAll(s1, d[1..]);
    assert d[1..][0] == d[1] && d[1..][1..] == d[2..];
    assert ReduceAll(s1, d[1..]) == ReduceAll(s2, d[2..]);
    assert d[2..][0] == d[2] && d[2..][1..] == d[3..];
    assert ReduceAll(s2, d[2..]) == ReduceAll(s3, d[3..]);
    assert d[3..][0] == d[3] && d[3..][1..] == [];
    assert ReduceAll(s3, d[3..]) == ReduceAll(Reduce(s3, d[3]), []);
  }

  /** The same unfolding for the corrected reducer. */
  lemma ReduceFourIntended(s: ChatState, d: seq<Action>)
    requires |d| == 4
    ensures ReduceAllIntended(s, d) == ReduceIntended(ReduceIntended(ReduceIntended(ReduceIntended(s, d[0]), d[1]), d[2]), d[3])
  {
    var s1 := ReduceIntended(s, d[0]);
    var s2 := ReduceIntended(s1, d[1]);
    var s3 := ReduceIntended(s2, d[2]);
    assert ReduceAllIntended(s, d) == ReduceAllIntended(s1, d[1..]);
    assert d[1..][0] == d[1] && d[1..][1..] == d[2..];
    assert ReduceAllIntended(s1, d[1..]) == ReduceAllIntended(s2, d[2..]);
    assert d[2..][0] == d[2] && d[2..][1..] == d[3..];
    assert ReduceAllIntended(s2, d[2..]) == ReduceAllIntended(s3, d[3..]);
    assert d[3..][0] == d[3] && d[3..][1..] == [];
    assert ReduceAllIntended(s3, d[3..]) == ReduceAllIntended(ReduceIntended(s3, d[3]), []);
  }

  /** Two dispatches in a row are two reductions in a row. */
  lemma ReduceTwo(s: ChatState, a: Action, b: Action)
    ensures ReduceAll(s, [a, b]) == Reduce(Reduce(s, a), b)
  {
    var s1 := Reduce(s, a);
    assert [a, b][0] == a && [a, b][1..] == [b];
    assert ReduceAll(s, [a, b]) == ReduceAll(s1, [b]);
    assert [b][0] == b && [b][1..] == [];
    assert ReduceAll(s1, [b]) == ReduceAll(Reduce(s1, b), []);
  }

  // ---------------------------------------------------------------------
  // Fetches

  /** Both fetch pendings raise the loading flag and clear the error, and
      leave the cached conversations and messages as they were. */
  lemma FetchPendingKeepsCache(s: ChatState, a: Action)
    requires a.FetchConversationsPending? || a.FetchMessagesPending?
    ensures Reduce(s, a).isLoading && Reduce(s, a).error == None
    ensures Reduce(s, a).conversations == s.conversations
    ensures Reduce(s, a).messages == s.messages
    ensures Reduce(s, a).currentConversation == s.currentConversation
  {
  }

  /** A fulfilled conversation fetch is a full overwrite of the list. */
  lemma FetchConversationsReplaces(s: ChatState, cs: seq<Conversation>)
    ensures Reduce(s, FetchConversationsFulfilled(cs)).conversations == cs
    ensures Reduce(s, FetchConversationsFulfilled(cs)).messages == s.messages
    ensures !Reduce(s, FetchConversationsFulfilled(cs)).isLoading
    ensures Reduce(s, FetchConversationsFulfilled(cs)).error == None
  {
  }

  /** A fulfilled message fetch is a full overwrite of the message list;
      the conversation that comes with the page is dropped, so the open
      conversation stays whatever it was. */
  lemma FetchMessagesReplaces(s: ChatState, resp: MessagesResponse)
    ensures Reduce(s, FetchMessagesFulfilled(resp)).messages == resp.messages
    ensures Reduce(s, FetchMessagesFulfilled(resp)).conversations == s.conversations
    ensures Reduce(s, FetchMessagesFulfilled(resp)).currentConversation == s.currentConversation
    ensures !Reduce(s, FetchMessagesFulfilled(resp)).isLoading
    ensures Reduce(s, FetchMessagesFulfilled(resp)).error == None
  {
  }

  /** A failed fetch keeps whatever was cached and reports the error's
      message, or the fixed fallback when it has none. */
  lemma FetchRejectedKeepsCache(s: ChatState, msg: Option<string>)
    ensures var r := Reduce(s, FetchConversationsRejected(msg));
      && r.conversations == s.conversations && r.messages == s.messages && !r.isLoading
      && r.error == Some(if Truthy(msg) then msg.value else "Failed to fetch conversations")
    ensures var r := Reduce(s, FetchMessagesRejected(msg));
      && r.conversations == s.conversations && r.messages == s.messages && !r.isLoading
      && r.error == Some(if Truthy(msg) then msg.value else "Failed to fetch messages")
  {
  }

  // ---------------------------------------------------------------------
  // Sending

  /** A successful send appends the server's message at the end and updates
      only the first conversation with the returned id: its last message and
      time change, its unread count and identity do not. Every other
      conversation is untouched, and with no match the list is unchanged. */
  lemma {:induction false} SendAppendsAndTouchesFirst(s: ChatState, resp: SendResponse)
    ensures var r := Reduce(s, SendMessageFulfilled(resp));
      && r.messages == s.messages + [resp.message]
      && SameThreads(s.conversations, r.conversations)
      && (forall k | 0 <= k < |s.conversations| :: r.conversations[k].unreadCount == s.conversations[k].unreadCount)
      && match Lists.FindIndex(s.conversations, HasId(Some(resp.conversationId)))
         case None => r.conversations == s.conversations
         case Some(i) =>
           && s.conversations[i].id == resp.conversationId
           && (forall k | 0 <= k < i :: s.conversations[k].id != resp.conversationId)
           && r.conversations[i].lastMessage == Some(resp.message)
           && r.conversations[i].updatedAt == resp.message.timestamp
           && (forall k | 0 <= k < |s.conversations| && k != i :: r.conversations[k] == s.conversations[k])
  {
    var p := HasId(Some(resp.conversationId));
    match Lists.FindIndex(s.conversations, p)
    case None =>
    case Some(i) =>
      assert p(s.conversations[i]);
      assert forall k | 0 <= k < i :: !p(s.conversations[k]);
  }

  /** The send thunk has no pending or rejected case: a send that fails
      leaves the whole chat state exactly as it was. */
  lemma FailedSendChangesNothing(s: ChatState, msg: Option<string>)
    ensures ReduceAll(s, [SendMessagePending, SendMessageRejected(msg)]) == s
  {
    ReduceTwo(s, SendMessagePending, SendMessageRejected(msg));
  }

  /** Sending in a conversation never clears its unread badge: the first
      conversation with the returned id gets the sent message as its last
      message, whoever sent it, while its unread count stays what it was. */
  lemma OwnSendKeepsUnreadCount(s: ChatState, resp: SendResponse, i: nat)
    requires i < |s.conversations| && s.conversations[i].id == resp.conversationId
    requires forall k | 0 <= k < i :: s.conversations[k].id != resp.conversationId
    ensures var r := Reduce(s, SendMessageFulfilled(resp));
      && |r.conversations| == |s.conversations|
      && r.conversations[i].unreadCount == s.conversations[i].unreadCount
      && r.conversations[i].lastMessage == Some(resp.message)
      && r.conversations[i].updatedAt == resp.message.timestamp
  {
    var p := HasId(Some(resp.conversationId));
    SendAppendsAndTouchesFirst(s, resp);
    assert p(s.conversations[i]);
    assert forall k | 0 <= k < i :: !p(s.conversations[k]);
    match Lists.FindIndex(s.conversations, p)
    case None =>
    case Some(j) =>
      assert j == i;
  }

  // ---------------------------------------------------------------------
  // Local message actions

  /** `addMessage` appends and updates the conversation named by the
      message's own (undeclared) `conversationId`; a message without one
      matches no conversation. */
  lemma {:induction false} AddMessageAppends(s: ChatState, m: Message)
    ensures var r := Reduce(s, AddMessage(m));
      && r.messages == s.messages + [m]
      && SameThreads(s.conversations, r.conversations)
      && (m.conversationId.None? ==> r.conversations == s.conversations)
      && (forall k | 0 <= k < |s.conversations| && (m.conversationId.None? || s.conversations[k].id != m.conversationId.value) ::
            r.conversations[k] == s.conversations[k])
  {
    var p := HasId(m.conversationId);
    if m.conversationId.None? {
      assert forall k | 0 <= k < |s.conversations| :: !p(s.conversations[k]);
    }
  }

  /** `updateMessageStatus` flips the read flag of the first message with the
      id, keeps length and order, and is a no-op when no message has it. */
  lemma {:induction false} UpdateStatusTouchesFirst(s: ChatState, id: string, isRead: bool)
    ensures var r := Reduce(s, UpdateMessageStatus(id, isRead));
      && SameMessagesButRead(s.messages, r.messages)
      && r.conversations == s.conversations
      && match Lists.FindIndex(s.messages, MessageHasId(id))
         case None => r.messages == s.messages
         case Some(i) =>
           && s.messages[i].id == id
           && r.messages[i].isRead == isRead
           && (forall k | 0 <= k < |s.messages| && k != i :: r.messages[k] == s.messages[k])
  {
    var p := MessageHasId(id);
    match Lists.FindIndex(s.messages, p)
    case None =>
    case Some(i) => assert p(s.messages[i]);
  }

  /** `clearMessages` empties the message list and nothing else. */
  lemma ClearMessagesOnlyMessages(s: ChatState)
    ensures Reduce(s, ClearMessages) == s.(messages := [])
    ensures Reduce(s, ClearMessages).conversations == s.conversations
  {
  }

  // ---------------------------------------------------------------------
  // Marking read

  predicate IsCurrent(s: ChatState, id: string) {
    s.currentConversation.Some? && s.currentConversation.value.id == id
  }

  /** `markAsRead` zeroes the unread count of the first conversation with the
      id and no other; every held message becomes read exactly when that id
      is the open conversation's, and otherwise the messages are untouched. */
  lemma {:induction false} MarkAsReadEffect(s: ChatState, id: string)
    ensures var r := Reduce(s, MarkAsReadFulfilled(id));
      && SameThreads(s.conversations, r.conversations)
      && (IsCurrent(s, id) ==> |r.messages| == |s.messages| && forall k | 0 <= k < |r.messages| :: r.messages[k].isRead)
      && (IsCurrent(s, id) ==> SameMessagesButRead(s.messages, r.messages))
      && (!IsCurrent(s, id) ==> r.messages == s.messages)
      && match Lists.FindIndex(s.conversations, HasId(Some(id)))
         case None => r.conversations == s.conversations
         case Some(i) =>
           && s.conversations[i].id == id
           && r.conversations[i].unreadCount == 0
           && r.conversations[i] == s.conversations[i].(unreadCount := 0)
           && (forall k | 0 <= k < |s.conversations| && k != i :: r.conversations[k] == s.conversations[k])
  {
    var p := HasId(Some(id));
    match Lists.FindIndex(s.conversations, p)
    case None =>
    case Some(i) => assert p(s.conversations[i]);
  }

  /** Marking a conversation read twice is the same as marking it once. */
  lemma {:induction false} MarkAsReadIdempotent(s: ChatState, id: string)
    ensures Reduce(Reduce(s, MarkAsReadFulfilled(id)), MarkAsReadFulfilled(id)) == Reduce(s, MarkAsReadFulfilled(id))
  {
    Lists.UpdateFirstIdempotent(s.conversations, HasId(Some(id)), Unread);
    if IsCurrent(s, id) {
      assert AllRead(AllRead(s.messages)) == AllRead(s.messages);
    }
  }

  // ---------------------------------------------------------------------
  // The open conversation

  /** The actions some screen dispatches: `setCurrentConversation` is
      exported, but nothing dispatches it. */
  predicate Dispatched(a: Action) {
    !a.SetCurrentConversation?
  }

  /** With no open conversation to begin with, as in the initial state, no
      run of dispatched actions ever opens one: the fetched conversation is
      dropped, and only `setCurrentConversation` writes the field. */
  lemma {:induction false} NoConversationEverOpens(s: ChatState, actions: seq<Action>)
    requires s.currentConversation.None?
    requires forall k | 0 <= k < |actions| :: Dispatched(actions[k])
    ensures ReduceAll(s, actions).currentConversation.None?
    decreases |actions|
  {
    if actions != [] {
      assert Dispatched(actions[0]);
      assert forall k | 0 <= k < |actions[1..]| :: actions[1..][k] == actions[k + 1];
      NoConversationEverOpens(Reduce(s, actions[0]), actions[1..]);
    }
  }

  /** The reducer as evidently intended: a fulfilled message fetch also
      opens the conversation the page belongs to. Every other action is
      reduced as written. */
  function ReduceIntended(s: ChatState, a: Action): (r: ChatState)
    ensures a.FetchMessagesFulfilled? ==>
      && r.currentConversation == Some(a.page.conversation)
      && r.messages == a.page.messages
      && r.conversations == s.conversations
    ensures !a.FetchMessagesFulfilled? ==> r == Reduce(s, a)
  {
    match a
    case FetchMessagesFulfilled(resp) => Reduce(s, a).(currentConversation := Some(resp.conversation))
    case _ => Reduce(s, a)
  }

  function ReduceAllIntended(s: ChatState, actions: seq<Action>): ChatState
    decreases |actions|
  {
    if actions == [] then s else ReduceAllIntended(ReduceIntended(s, actions[0]), actions[1..])
  }
}

=== FILE: form_errors.dfy ===
/** The per-field error maps of the multi-field forms. `validateForm` builds
    a fresh object holding exactly the failing fields; `updateFormData`
    blanks the edited field's message when one is shown, leaving the key in
    place. A message of `""` is not shown. */
module FieldErrors {

  type Errors<F> = map<F, string>

  /** The error the screen displays for `field`: present and not `""`. */
  predicate Shown<F>(e: Errors<F>, field: F) {
    field in e && e[field] != ""
  }

  /** A fresh error object over `fields`, one entry per field whose check
      fails. */
  function Collect<F(!new)>(fields: set<F>, check: F -> string): (r: Errors<F>)
    ensures forall g :: g in r <==> g in fields && check(g) != ""
    ensures forall g | g in r :: r[g] == check(g) && Shown(r, g)
  {
    map g | g in fields && check(g) != "" :: check(g)
  }

  /** The error-map half of `updateFormData`: a shown error for the edited
      field becomes `""`; everything else stays. */
  function Dismiss<F(!new)>(e: Errors<F>, field: F): (r: Errors<F>)
    ensures !Shown(r, field)
    ensures forall g | g != field :: g in r <==> g in e
    ensures forall g | g != field && g in e :: r[g] == e[g]
    ensures r.Keys == e.Keys
    ensures !Shown(e, field) ==> r == e
  {
    if Shown(e, field) then e[field := ""] else e
  }

  /** A form is accepted when validation leaves the error object empty,
      which happens exactly when every field passes. */
  lemma CollectEmpty<F(!new)>(fields: set<F>, check: F -> string)
    ensures Collect(fields, check) == map[] <==> forall g | g in fields :: check(g) == ""
  {
    var r := Collect(fields, check);
    if r != map[] {
      var g :| g in r;
    }
  }
}

=== FILE: lists.dfy ===
/** `Array.prototype.filter` and the facts about it the screens rely on. */
module Lists {
  import opened Base

  /** `s.findIndex(p)`, with -1 as `None`: the first position whose element
      satisfies `p`. */
  function FindIndex<T>(s: seq<T>, p: T -> bool): (r: Option<nat>)
    ensures r.Some? ==> r.value < |s| && p(s[r.value])
    ensures r.Some? ==> forall k | 0 <= k < r.value :: !p(s[k])
    ensures r.None? <==> forall k | 0 <= k < |s| :: !p(s[k])
  {
    if s == [] then None
    else if p(s[0]) then Some(0)
    else
      match FindIndex(s[1..], p)
      case None => None
      case Some(i) => Some(i + 1)
  }

  /** The object `s.find(p)` returns, mutated in place by `f`: only the first
      element satisfying `p` changes. */
  function UpdateFirst<T>(s: seq<T>, p: T -> bool, f: T -> T): (r: seq<T>)
    ensures |r| == |s|
    ensures forall k | 0 <= k < |s| && FindIndex(s, p) != Some(k) :: r[k] == s[k]
    ensures FindIndex(s, p).Some? ==> r[FindIndex(s, p).value] == f(s[FindIndex(s, p).value])
    ensures (forall k | 0 <= k < |s| :: !p(s[k])) ==> r == s
  {
    match FindIndex(s, p)
    case None => s
    case Some(i) => s[i := f(s[i])]
  }

  /** Updating the first match with an `f` that keeps `p` true leaves the
      first match where it was. */
  lemma {:induction false} UpdateFirstKeepsIndex<T>(s: seq<T>, p: T -> bool, f: T -> T)
    requires forall x :: p(x) ==> p(f(x))
    ensures FindIndex(UpdateFirst(s, p, f), p) == FindIndex(s, p)
  {
    var r := UpdateFirst(s, p, f);
    match FindIndex(s, p)
    case None =>
    case Some(i) =>
      assert p(r[i]);
      assert forall k | 0 <= k < i :: r[k] == s[k];
  }

  /** Updating the first match twice with an idempotent `f` that keeps `p`
      true is updating it once. */
  lemma UpdateFirstIdempotent<T>(s: seq<T>, p: T -> bool, f: T -> T)
    requires forall x :: p(x) ==> p(f(x))
    requires forall x :: f(f(x)) == f(x)
    ensures UpdateFirst(UpdateFirst(s, p, f), p, f) == UpdateFirst(s, p, f)
  {
    var r := UpdateFirst(s, p, f);
    UpdateFirstKeepsIndex(s, p, f);
    match FindIndex(s, p)
    case None =>
    case Some(i) =>
      assert r[i] == f(s[i]);
      assert r[i := f(r[i])] == r;
  }

  /** `s.filter(p)`: the elements satisfying `p`, in their original order. */
  function Keep<T>(s: seq<T>, p: T -> bool): (r: seq<T>)
    ensures |r| <= |s|
    ensures forall k | 0 <= k < |r| :: r[k] in s && p(r[k])
    ensures forall k | 0 <= k < |s| :: p(s[k]) ==> s[k] in r
    ensures multiset(r) <= multiset(s)
  {
    if s == [] then []
    else
      assert s == [s[0]] + s[1..];
      (if p(s[0]) then [s[0]] else []) + Keep(s[1..], p)
  }

  /** Filtering distributes over concatenation, which is what "keeps the
      original order" means: the survivors of a prefix precede those of the
      suffix. */
  lemma {:induction false} KeepAppend<T>(a: seq<T>, b: seq<T>, p: T -> bool)
    ensures Keep(a + b, p) == Keep(a, p) + Keep(b, p)
    decreases |a|
  {
    if a == [] {
      assert a + b == b;
    } else {
      assert (a + b)[1..] == a[1..] + b;
      KeepAppend(a[1..], b, p);
    }
  }

  /** A filter every element passes returns the list unchanged. */
  lemma {:induction false} KeepAll<T>(s: seq<T>, p: T -> bool)
    requires forall k | 0 <= k < |s| :: p(s[k])
    ensures Keep(s, p) == s
    decreases |s|
  {
    if s != [] {
      KeepAll(s[1..], p);
    }
  }

  /** A filter no element passes returns the empty list. */
  lemma {:induction false} KeepNone<T>(s: seq<T>, p: T -> bool)
    requires forall k | 0 <= k < |s| :: !p(s[k])
    ensures Keep(s, p) == []
    decreases |s|
  {
    if s != [] {
      KeepNone(s[1..], p);
    }
  }

  /** Two predicates that agree on every element select the same elements. */
  lemma {:induction false} KeepAgree<T>(s: seq<T>, p: T -> bool, q: T -> bool)
    requires forall k | 0 <= k < |s| :: p(s[k]) == q(s[k])
    ensures Keep(s, p) == Keep(s, q)
    decreases |s|
  {
    if s != [] {
      KeepAgree(s[1..], p, q);
    }
  }

  /** How many elements satisfy `p`: `s.filter(p).length`. */
  function CountIf<T>(s: seq<T>, p: T -> bool): nat {
    |Keep(s, p)|
  }

  /** Three predicates that partition the elements split the count. */
  lemma {:induction false} CountPartition<T>(s: seq<T>, p: T -> bool, q: T -> bool, u: T -> bool)
    requires forall k | 0 <= k < |s| ::
      (if p(s[k]) then 1 else 0) + (if q(s[k]) then 1 else 0) + (if u(s[k]) then 1 else 0) == 1
    ensures CountIf(s, p) + CountIf(s, q) + CountIf(s, u) == |s|
    decreases |s|
  {
    if s != [] {
      CountPartition(s[1..], p, q, u);
    }
  }
}

=== FILE: product_screens.dfy ===
/** The listing form: six validated fields, a tag list kept free of blanks
    and duplicates, and the request it sends. */
module CreateProductScreen {
  import opened Base
  import opened Text
  import Lists
  import FieldErrors

  datatype Field = Title | Description | Price | Category | Condition | Location

  datatype Form = Form(
    title: string,
    description: string,
    price: string,
    category: string,
    condition: string,
    location: string,
    tags: seq<string>)

  const Empty := Form("", "", "", "", "", "", [])

  type Errors = FieldErrors.Errors<Field>

  /** JavaScript's `Number(s)` on the price text: `None` is `NaN`. Number
      parsing is a parameter of the model. */
  type ParseNumber = string -> Option<real>

  const TitleRequired := "Title is required"
  const TitleTooShort := "Title must be at least 5 characters"
  const DescriptionRequired := "Description is required"
  const DescriptionTooShort := "Description must be at least 20 characters"
  const PriceRequired := "Price is required"
  const PriceInvalid := "Please enter a valid price"
  const CategoryRequired := "Category is required"
  const ConditionRequired := "Condition is required"
  const LocationRequired := "Location is required"
  const MinTitleLength := 5
  const MinDescriptionLength := 20

  function Get(f: Form, field: Field): string {
    match field
    case Title => f.title
    case Description => f.description
    case Price => f.price
    case Category => f.category
    case Condition => f.condition
    case Location => f.location
  }

  /** `{ ...prev, [field]: value }` on one of the six text fields. */
  function Set(f: Form, field: Field, value: string): (r: Form)
    ensures Get(r, field) == value
    ensures forall g | g != field :: Get(r, g) == Get(f, g)
    ensures r.tags == f.tags
  {
    match field
    case Title => f.(title := value)
    case Description => f.(description := value)
    case Price => f.(price := value)
    case Category => f.(category := value)
    case Condition => f.(condition := value)
    case Location => f.(location := value)
  }

  /** `updateFormData` on a text field: the field takes the value and its
      shown error, if any, is dismissed. */
  function Edit(f: Form, e: Errors, field: Field, value: string): (r: (Form, Errors))
    ensures Get(r.0, field) == value && r.0.tags == f.tags
    ensures forall g | g != field :: Get(r.0, g) == Get(f, g)
    ensures !FieldErrors.Shown(r.1, field)
    ensures forall g | g != field :: FieldErrors.Shown(r.1, g) == FieldErrors.Shown(e, g)
  {
    (Set(f, field, value), FieldErrors.Dismiss(e, field))
  }

  /** A price the form accepts: it parses and is above zero. */
  predicate ValidPrice(price: string, number: ParseNumber) {
    number(price).Some? && number(price).value > 0.0
  }

  /** The message for one field, `""` when it passes. Blankness is judged
      after trimming, lengths (in UTF-16 code units) on the untrimmed text; category and condition
      are only tested for emptiness. */
  function FieldError(f: Form, field: Field, number: ParseNumber): string {
    match field
    case Title =>
      if IsBlank(f.title) then TitleRequired else if Utf16Length(f.title) < MinTitleLength then TitleTooShort else ""
    case Description =>
      if IsBlank(f.description) then DescriptionRequired
      else if Utf16Length(f.description) < MinDescriptionLength then DescriptionTooShort else ""
    case Price =>
      if IsBlank(f.price) then PriceRequired else if !ValidPrice(f.price, number) then PriceInvalid else ""
    case Category => if f.category == "" then CategoryRequired else ""
    case Condition => if f.condition == "" then ConditionRequired else ""
    case Location => if IsBlank(f.location) then LocationRequired else ""
  }

  const AllFields := {Title, Description, Price, Category, Condition, Location}

  lemma AllFieldsListed(g: Field)
    ensures g in AllFields
  {
  }

  /** `validateForm`: a fresh map holding exactly the failing fields. */
  function Validate(f: Form, number: ParseNumber): (r: Errors)
    ensures forall g :: g in r <==> FieldError(f, g, number) != ""
    ensures forall g | g in r :: r[g] == FieldError(f, g, number)
  {
    forall g ensures g in AllFields {
      AllFieldsListed(g);
    }
    FieldErrors.Collect(AllFields, g => FieldError(f, g, number))
  }

  /** The form is accepted exactly when every rule holds. */
  lemma ValidateAccepts(f: Form, number: ParseNumber)
    ensures Validate(f, number) == map[] <==>
      && !IsBlank(f.title) && Utf16Length(f.title) >= MinTitleLength
      && !IsBlank(f.description) && Utf16Length(f.description) >= MinDescriptionLength
      && !IsBlank(f.price) && ValidPrice(f.price, number)
      && f.category != "" && f.condition != ""
      && !IsBlank(f.location)
  {
    var check := g => FieldError(f, g, number);
    FieldErrors.CollectEmpty(AllFields, check);
    if forall g | g in AllFields :: check(g) == "" {
      assert check(Title) == "" && check(Description) == "" && check(Price) == "";
      assert check(Category) == "" && check(Condition) == "" && check(Location) == "";
    } else {
      var g :| g in AllFields && check(g) != "";
      match g
      case Title => case Description => case Price =>
      case Category => case Condition => case Location =>
    }
  }

  /** What `handleSubmit` sends to the create endpoint. */
  datatype Listing = Listing(
    title: string,
    description: string,
    price: real,
    category: string,
    condition: string,
    location: string,
    images: seq<string>,
    tags: seq<string>)

  /** `handleSubmit`'s request: nothing when validation fails, otherwise the
      trimmed texts, the parsed price, no images and the tags as listed. */
  function Submission(f: Form, number: ParseNumber): (r: Option<Listing>)
    ensures r.Some? <==> Validate(f, number) == map[]
    ensures r.Some? ==>
      && r.value.title == Trim(f.title) && r.value.title != []
      && r.value.description == Trim(f.description) && r.value.description != []
      && r.value.location == Trim(f.location) && r.value.location != []
      && r.value.price > 0.0 && Some(r.value.price) == number(f.price)
      && r.value.category == f.category && r.value.condition == f.condition
      && r.value.images == [] && r.value.tags == f.tags
  {
    if Validate(f, number) == map[] then
      ValidateAccepts(f, number);
      Some(Listing(Trim(f.title), Trim(f.description), number(f.price).value, f.category, f.condition,
        Trim(f.location), [], f.tags))
    else None
  }

  /** The length rules count surrounding white space: every non-blank
      title of five code units or more passes, padding included, so some
      titles that pass are shorter than five code units once trimmed for
      sending ("   ab"). */
  lemma PaddedTitleSentShort()
    ensures forall f: Form, number: ParseNumber | !IsBlank(f.title) && Utf16Length(f.title) >= MinTitleLength ::
      FieldError(f, Title, number) == ""
    ensures exists f: Form :: FieldError(f, Title, _ => None) == "" && Utf16Length(Trim(f.title)) < MinTitleLength
  {
    PaddedTitle();
    var f := Empty.(title := "   ab");
    assert FieldError(f, Title, _ => None) == "" && Utf16Length(Trim(f.title)) < MinTitleLength;
  }

  /** The witness: three spaces and two letters count five code units, and
      two once trimmed. */
  lemma PaddedTitle()
    ensures !IsBlank("   ab") && Utf16Length("   ab") == 5
    ensures Trim("   ab") == "ab" && Utf16Length("ab") == 2
  {
    var title := "   ab";
    assert !IsSpace(title[3]);
    assert title == "   " + "ab";
    TrimPadded("   ", "ab");
  }

  /** A tag as the list holds it: not blank and with no white space at
      either end. */
  predicate CleanTag(t: string) {
    t != [] && !IsSpace(t[0]) && !IsSpace(t[|t| - 1])
  }

  /** The list's invariant: clean tags, no two equal. */
  predicate GoodTags(tags: seq<string>) {
    && (forall t | t in tags :: CleanTag(t))
    && (forall i, j | 0 <= i < j < |tags| :: tags[i] != tags[j])
  }

  /** `handleAddTag`: the tag list and the tag input after it. A trimmed,
      non-blank tag not yet listed is appended and the input cleared;
      anything else changes nothing. */
  function AddTag(tags: seq<string>, input: string): (r: (seq<string>, string))
    ensures GoodTags(tags) ==> GoodTags(r.0)
    ensures !IsBlank(input) && Trim(input) !in tags ==> r == (tags + [Trim(input)], "")
    ensures IsBlank(input) || Trim(input) in tags ==> r == (tags, input)
  {
    var t := Trim(input);
    if t != [] && t !in tags then
      AppendKeepsGood(tags, t);
      (tags + [t], "")
    else
      (tags, input)
  }

  /** Appending a clean tag the list lacks keeps the list good. */
  lemma AppendKeepsGood(tags: seq<string>, t: string)
    requires CleanTag(t) && t !in tags
    ensures GoodTags(tags) ==> GoodTags(tags + [t])
  {
    var r := tags + [t];
    if GoodTags(tags) {
      forall u | u in r ensures CleanTag(u) {
        if u != t {
          assert u in tags;
        }
      }
      forall i, j | 0 <= i < j < |r| ensures r[i] != r[j] {
        if j == |tags| {
          assert r[i] == tags[i];
        } else {
          assert r[i] == tags[i] && r[j] == tags[j];
        }
      }
    }
  }

  /** `handleRemoveTag`: every copy of the tag goes and the rest keep their
      order. */
  function RemoveTag(tags: seq<string>, t: string): (r: seq<string>)
    ensures t !in r
    ensures forall k | 0 <= k < |tags| && tags[k] != t :: tags[k] in r
    ensures r == Lists.Keep(tags, (x: string) => x != t)
  {
    Lists.Keep(tags, (x: string) => x != t)
  }

  /** Removing keeps the list good, and removing an absent tag changes
      nothing. */
  lemma RemoveTagKeepsGood(tags: seq<string>, t: string)
    ensures GoodTags(tags) ==> GoodTags(RemoveTag(tags, t))
    ensures t !in tags ==> RemoveTag(tags, t) == tags
  {
    if t !in tags {
      Lists.KeepAll(tags, (x: string) => x != t);
    }
    if GoodTags(tags) {
      KeepGoodTags(tags, t);
    }
  }

  /** Keeping a subsequence of a good list keeps it good. */
  lemma {:induction false} KeepGoodTags(tags: seq<string>, t: string)
    requires GoodTags(tags)
    ensures GoodTags(Lists.Keep(tags, (x: string) => x != t))
    decreases |tags|
  {
    if tags != [] {
      var p := (x: string) => x != t;
      assert GoodTags(tags[1..]) by {
        forall u | u in tags[1..] ensures CleanTag(u) {
          assert u in tags;
        }
      }
      KeepGoodTags(tags[1..], t);
      var rest := Lists.Keep(tags[1..], p);
      assert tags[0] !in tags[1..] by {
        forall k | 0 <= k < |tags[1..]| ensures tags[1..][k] != tags[0] {
          assert tags[1..][k] == tags[k + 1];
        }
      }
      assert Lists.Keep(tags, p) == (if p(tags[0]) then [tags[0]] else []) + rest;
      assert forall k | 0 <= k < |rest| :: rest[k] in tags[1..];
    }
  }

  /** Adding a tag and then removing it gives back the list it was added
      to. */
  lemma AddThenRemove(tags: seq<string>, input: string)
    requires !IsBlank(input) && Trim(input) !in tags
    ensures RemoveTag(AddTag(tags, input).0, Trim(input)) == tags
  {
    var t := Trim(input);
    var p := (x: string) => x != t;
    Lists.KeepAppend(tags, [t], p);
    Lists.KeepAll(tags, p);
    assert Lists.Keep([t], p) == [];
  }
}

/** The seller's own listings: a status filter with four tabs, a status
    label per card and a count per status. */
module MyProductsScreen {
  import opened Base
  import Lists
  import ProductSlice

  datatype Tab = AllTab | ActiveTab | SoldTab | PendingTab

  /** The tab's key as the screen compares it with a listing's status. */
  function TabKey(t: Tab): string {
    match t
    case AllTab => "all"
    case ActiveTab => "active"
    case SoldTab => "sold"
    case PendingTab => "pending"
  }

  /** The tab's caption: "All", or the key with its first letter capitalised. */
  function TabLabel(t: Tab): string {
    match t
    case AllTab => "All"
    case ActiveTab => "Active"
    case SoldTab => "Sold"
    case PendingTab => "Pending"
  }

  /** A status the listing type allows. */
  predicate WellTyped(p: ProductSlice.Product) {
    p.status in {"available", "sold", "pending"}
  }

  predicate AllWellTyped(ps: seq<ProductSlice.Product>) {
    forall i | 0 <= i < |ps| :: WellTyped(ps[i])
  }

  function HasStatus(status: string): ProductSlice.Product -> bool {
    (p: ProductSlice.Product) => p.status == status
  }

  /** `getFilteredProducts` as written: all listings, or those whose status
      equals the tab's key. */
  function FilterAsWritten(ps: seq<ProductSlice.Product>, t: Tab): (r: seq<ProductSlice.Product>)
    ensures t == AllTab ==> r == ps
    ensures t != AllTab ==> r == Lists.Keep(ps, HasStatus(TabKey(t)))
    ensures t != AllTab ==> forall p :: p in r <==> p in ps && p.status == TabKey(t)
    ensures multiset(r) <= multiset(ps)
  {
    if t == AllTab then ps else Lists.Keep(ps, HasStatus(TabKey(t)))
  }

  /** The "Active" tab never shows a well-typed listing: no allowed status
      is spelled "active". The stats header counts those same listings under
      "Active". */
  lemma ActiveTabAlwaysEmpty(ps: seq<ProductSlice.Product>)
    requires AllWellTyped(ps)
    ensures FilterAsWritten(ps, ActiveTab) == []
  {
    Lists.KeepNone(ps, HasStatus(TabKey(ActiveTab)));
  }

  /** The status a tab selects as evidently intended: the "Active" tab
      shows available listings. */
  function TabStatus(t: Tab): string
    requires t != AllTab
  {
    match t
    case ActiveTab => "available"
    case SoldTab => "sold"
    case PendingTab => "pending"
  }

  /** `getStatusLabel`: the caption of a known status, or the status
      itself. */
  function StatusLabel(status: string): (r: string)
    ensures forall t | t != AllTab && status == TabStatus(t) :: r == TabLabel(t)
    ensures status !in {"available", "sold", "pending"} ==> r == status
  {
    if status == "available" then "Active"
    else if status == "sold" then "Sold"
    else if status == "pending" then "Pending"
    else status
  }

  /** The corrected filter. */
  function Filter(ps: seq<ProductSlice.Product>, t: Tab): (r: seq<ProductSlice.Product>)
    ensures t == AllTab ==> r == ps
    ensures t != AllTab ==> r == Lists.Keep(ps, HasStatus(TabStatus(t)))
    ensures t != AllTab ==> forall p :: p in r <==> p in ps && p.status == TabStatus(t)
    ensures t != ActiveTab ==> r == FilterAsWritten(ps, t)
  {
    if t == AllTab then ps else Lists.Keep(ps, HasStatus(TabStatus(t)))
  }

  /** With the corrected filter, a status tab shows exactly the listings
      whose card label is the tab's caption. */
  lemma TabShowsItsLabel(ps: seq<ProductSlice.Product>, t: Tab)
    requires t != AllTab && AllWellTyped(ps)
    ensures Filter(ps, t) == Lists.Keep(ps, (p: ProductSlice.Product) => StatusLabel(p.status) == TabLabel(t))
  {
    Lists.KeepAgree(ps, HasStatus(TabStatus(t)), (p: ProductSlice.Product) => StatusLabel(p.status) == TabLabel(t));
  }

  /** The three status tabs partition the listings: their sizes, which are
      also the header's three counts, add up to the "All" tab's. */
  lemma TabsPartition(ps: seq<ProductSlice.Product>)
    requires AllWellTyped(ps)
    ensures |Filter(ps, ActiveTab)| + |Filter(ps, SoldTab)| + |Filter(ps, PendingTab)| == |Filter(ps, AllTab)|
    ensures |Filter(ps, ActiveTab)| == Lists.CountIf(ps, HasStatus("available"))
  {
    var available, sold, pending := HasStatus("available"), HasStatus("sold"), HasStatus("pending");
    forall k | 0 <= k < |ps|
      ensures (if available(ps[k]) then 1 else 0) + (if sold(ps[k]) then 1 else 0) + (if pending(ps[k]) then 1 else 0) == 1
    {
      assert WellTyped(ps[k]);
    }
    Lists.CountPartition(ps, available, sold, pending);
  }

  /** A label is its own label: captions are not statuses. */
  lemma StatusLabelIdempotent(status: string)
    ensures StatusLabel(StatusLabel(status)) == StatusLabel(status)
  {
  }
}

/** The search screen: the query box, the filter sheet's draft selection,
    and what each control dispatches to the product slice. */
module SearchScreen {
  import opened Base
  import opened Text
  import ProductSlice

  /** The draft selection the filter sheet edits before it is applied. */
  datatype Selection = Selection(category: string, condition: string, priceRange: ProductSlice.PriceRange, location: string)

  const Defaults := Selection("", "", ProductSlice.PriceRange(0, 10000), "")

  /** The price chips, in display order. */
  const PriceChips := [
    ProductSlice.PriceRange(0, 50),
    ProductSlice.PriceRange(50, 100),
    ProductSlice.PriceRange(100, 250),
    ProductSlice.PriceRange(250, 500),
    ProductSlice.PriceRange(500, 10000)]

  /** What a control does: the actions it dispatches synchronously, in
      order, and the query it starts a search for, if any. */
  datatype Effect = Effect(dispatched: seq<ProductSlice.Action>, search: Option<string>)

  /** `handleSearch`: a search for the trimmed query, or nothing when it is
      blank. */
  function HandleSearch(query: string): (r: Option<string>)
    ensures r.None? <==> IsBlank(query)
    ensures r.Some? ==> r.value == Trim(query) && r.value != []
  {
    if IsBlank(query) then None else Some(Trim(query))
  }

  /** The query-change effect: a blank query clears the results at once; any
      other query searches (after a debounce left out of the model). */
  function OnQueryChange(query: string): (r: Effect)
    ensures IsBlank(query) ==> r == Effect([ProductSlice.ClearSearchResults], None)
    ensures !IsBlank(query) ==> r.dispatched == [] && r.search == HandleSearch(query)
    ensures r.search.Some? <==> !IsBlank(query)
    ensures r.search.Some? ==> r.search.value == Trim(query) && r.search.value != []
    ensures |r.dispatched| == 1 <==> r.search.None?
  {
    if IsBlank(query) then Effect([ProductSlice.ClearSearchResults], None) else Effect([], HandleSearch(query))
  }

  /** A category chip toggles: afterwards the row has that chip selected or
      none, and none exactly when the chip was the one selected before.
      Nothing else in the draft changes. */
  function ToggleCategory(s: Selection, c: string): (r: Selection)
    ensures r.category == c || r.category == ""
    ensures r.category == "" <==> s.category == c || c == ""
    ensures r == s.(category := r.category)
  {
    s.(category := if s.category == c then "" else c)
  }

  /** The condition row toggles the same way. */
  function ToggleCondition(s: Selection, c: string): (r: Selection)
    ensures r.condition == c || r.condition == ""
    ensures r.condition == "" <==> s.condition == c || c == ""
    ensures r == s.(condition := r.condition)
  {
    s.(condition := if s.condition == c then "" else c)
  }

  /** A price chip selects its range; it does not toggle. Afterwards the
      chip carrying that range is the only one shown as selected (none is
      for a range no chip carries), and the other rows keep their choice. */
  function ChoosePrice(s: Selection, range: ProductSlice.PriceRange): (r: Selection)
    ensures r.priceRange == range
    ensures r.category == s.category && r.condition == s.condition && r.location == s.location
    ensures forall i: nat | i < |PriceChips| && PriceChips[i] == range :: SelectedChips(r) == {i}
    ensures (forall i: nat | i < |PriceChips| :: PriceChips[i] != range) ==> SelectedChips(r) == {}
  {
    ChipsDistinct();
    s.(priceRange := range)
  }

  /** The chips shown as selected: those whose range equals the draft's. */
  function SelectedChips(s: Selection): (r: set<nat>)
    ensures forall i: nat :: i in r <==> i < |PriceChips| && PriceChips[i] == s.priceRange
    ensures forall i: nat, j: nat | i in r && j in r :: i == j
  {
    ChipsDistinct();
    set i: nat | i < |PriceChips| && PriceChips[i] == s.priceRange
  }

  /** No two price chips carry the same range. */
  lemma ChipsDistinct()
    ensures forall i: nat, j: nat | i < |PriceChips| && j < |PriceChips| && PriceChips[i] == PriceChips[j] :: i == j
  {
    forall i: nat, j: nat | i < |PriceChips| && j < |PriceChips| && PriceChips[i] == PriceChips[j]
      ensures i == j
    {
      assert i == 0 || i == 1 || i == 2 || i == 3 || i == 4;
      assert j == 0 || j == 1 || j == 2 || j == 3 || j == 4;
    }
  }

  /** At most one price chip is ever selected, the one last chosen is, and
      the default range selects none. */
  lemma OnePriceChip(s: Selection, i: nat)
    requires i < |PriceChips|
    ensures SelectedChips(ChoosePrice(s, PriceChips[i])) == {i}
    ensures SelectedChips(Defaults) == {}
  {
    ChipsDistinct();
  }

  /** Toggling the same chip twice restores a draft in which that chip, or
      no chip of its row, was selected. */
  lemma ToggleTwice(s: Selection, c: string)
    requires c != ""
    ensures s.category == "" || s.category == c ==> ToggleCategory(ToggleCategory(s, c), c) == s
    ensures s.condition == "" || s.condition == c ==> ToggleCondition(ToggleCondition(s, c), c) == s
    ensures ToggleCategory(s, c).category == "" <==> s.category == c
  {
  }

  /** The whole draft as a filter patch: every key is present. */
  function Patch(s: Selection): ProductSlice.FiltersPatch {
    ProductSlice.FiltersPatch(Some(s.category), Some(s.priceRange), Some(s.condition), Some(s.location))
  }

  function AsFilters(s: Selection): ProductSlice.Filters {
    ProductSlice.Filters(s.category, s.priceRange, s.condition, s.location)
  }

  /** `applyFilters`: store the whole draft, then search again when the
      query is not blank. */
  function ApplyFilters(s: Selection, query: string): (r: Effect)
    ensures r.dispatched == [ProductSlice.SetFilters(Patch(s))]
    ensures r.search == HandleSearch(query)
  {
    Effect([ProductSlice.SetFilters(Patch(s))], HandleSearch(query))
  }

  /** `clearAllFilters`: the draft back to its defaults and the results
      cleared; the filters already in the store are not reset. The cleared
      draft is the store's initial filters with no price chip selected, and
      the one action it dispatches empties the results of any store and
      changes nothing else. No search is started. */
  function ClearAll(s: Selection): (r: (Selection, Effect))
    ensures AsFilters(r.0) == ProductSlice.InitialFilters
    ensures SelectedChips(r.0) == {}
    ensures r.1.search.None? && |r.1.dispatched| == 1
    ensures forall st :: ProductSlice.Reduce(st, r.1.dispatched[0]) == st.(searchResults := [])
  {
    (Defaults, Effect([ProductSlice.ClearSearchResults], None))
  }

  /** Applying the draft makes the store's filters exactly the draft,
      whatever they were, and changes nothing else in the store; it starts
      a search for the trimmed query exactly when the query is not blank. */
  lemma ApplyStoresDraft(st: ProductSlice.ProductState, s: Selection, query: string)
    ensures |ApplyFilters(s, query).dispatched| == 1
    ensures var r := ProductSlice.Reduce(st, ApplyFilters(s, query).dispatched[0]);
      r.filters == AsFilters(s) && r.searchResults == st.searchResults && r.isLoading == st.isLoading
      && r == st.(filters := AsFilters(s))
    ensures ApplyFilters(s, query).search.Some? <==> !IsBlank(query)
    ensures ApplyFilters(s, query).search.Some? ==> ApplyFilters(s, query).search.value == Trim(query)
  {
  }

  /** Typing in the search box, as the store sees it: a blank query empties
      the results and touches nothing else; any other query leaves the store
      as it is and searches for the trimmed text. */
  lemma QueryChangeEffect(st: ProductSlice.ProductState, query: string)
    ensures var r := OnQueryChange(query);
      && (IsBlank(query) ==> |r.dispatched| == 1 && ProductSlice.Reduce(st, r.dispatched[0]) == st.(searchResults := []))
      && (!IsBlank(query) ==> r.dispatched == [] && r.search == Some(Trim(query)))
  {
  }

  /** The draft's defaults are the store's initial filters, but clearing the
      draft dispatches no reset, so filters applied earlier stay in the
      store. */
  lemma ClearAllKeepsStoredFilters(st: ProductSlice.ProductState, s: Selection)
    ensures AsFilters(Defaults) == ProductSlice.InitialFilters
    ensures var r := ProductSlice.Reduce(st, ClearAll(s).1.dispatched[0]);
      r.filters == st.filters && r.searchResults == []
  {
  }

  /** The search the sheet starts depends on the query alone: the draft
      never reaches the request. */
  lemma SearchIgnoresSelection(s: Selection, s': Selection, query: string)
    ensures ApplyFilters(s, query).search == ApplyFilters(s', query).search
  {
  }
}

=== FILE: product_slice.dfy ===
/** The products slice of the Redux store: listing pages, featured and
    search results, the product on display, the filter selection and the
    pagination cursor. */
module ProductSlice {
  import opened Base

  datatype Seller = Seller(id: string, username: string, avatar: Option<string>, rating: real)

  /** A listing. `status` is kept as the raw string the screens compare
      against; the declared type allows 'available', 'sold' and 'pending'. */
  datatype Product = Product(
    id: string,
    title: string,
    description: string,
    price: real,
    category: string,
    condition: string,
    images: seq<string>,
    seller: Seller,
    location: string,
    createdAt: string,
    status: string,
    tags: seq<string>)

  /** The seller summary of a detail response. */
  datatype SellerInfo = SellerInfo(
    id: string, username: string, avatar: Option<string>, rating: real,
    totalSales: int, memberSince: string, location: string)

  /** What the by-id endpoint returns: the listing wrapped with related
      listings and the seller summary. */
  datatype ProductDetail = ProductDetail(product: Product, relatedProducts: seq<Product>, sellerInfo: SellerInfo)

  /** What `currentProduct` holds at run time. The declared type is a
      listing, which is what `setCurrentProduct` stores; the by-id fetch
      stores its whole detail response there instead. */
  datatype Shown = Listing(listing: Product) | DetailPage(detail: ProductDetail)

  /** `currentProduct.seller.id` as the detail screen reads it: a detail
      response has no `seller` key, so reading its `id` throws (`None`). */
  function ShownSellerId(c: Shown): (r: Option<string>)
    ensures r.Some? <==> c.Listing?
    ensures c.Listing? ==> r == Some(c.listing.seller.id)
  {
    match c
    case Listing(p) => Some(p.seller.id)
    case DetailPage(_) => None
  }

  datatype PriceRange = PriceRange(low: int, high: int)

  datatype Filters = Filters(category: string, priceRange: PriceRange, condition: string, location: string)

  /** `Partial<Filters>`: a key absent from the payload is `None`. */
  datatype FiltersPatch = FiltersPatch(
    category: Option<string>,
    priceRange: Option<PriceRange>,
    condition: Option<string>,
    location: Option<string>)

  datatype Pagination = Pagination(page: int, limit: int, total: int, hasMore: bool)

  datatype ProductState = ProductState(
    products: seq<Product>,
    featuredProducts: seq<Product>,
    searchResults: seq<Product>,
    currentProduct: Option<Shown>,
    isLoading: bool,
    error: Option<string>,
    filters: Filters,
    pagination: Pagination)

  const InitialFilters := Filters("", PriceRange(0, 10000), "", "")
  const InitialPagination := Pagination(1, 20, 0, true)
  const Initial := ProductState([], [], [], None, false, None, InitialFilters, InitialPagination)

  /** A page of listings. The response type declares the page number only
      inside `pagination`; the reducer reads a top-level `page`, which is
      therefore optional here. */
  datatype ProductPage = ProductPage(products: seq<Product>, page: Option<int>, pagination: Pagination)

  datatype Action =
    | ClearSearchResults
    | SetFilters(patch: FiltersPatch)
    | ClearFilters
    | SetCurrentProduct(product: Option<Product>)
    | ResetPagination
    | FetchProductsPending
    | FetchProductsFulfilled(fetched: ProductPage)
    | FetchProductsRejected(fetchError: Option<string>)
    | SearchProductsPending
    | SearchProductsFulfilled(found: seq<Product>)
    | SearchProductsRejected(searchError: Option<string>)
    | FetchProductByIdPending
    | FetchProductByIdFulfilled(byId: ProductDetail)
    | FetchProductByIdRejected(byIdError: Option<string>)
    | FetchFeaturedPending
    | FetchFeaturedFulfilled(featured: seq<Product>)
    | FetchFeaturedRejected(featuredError: Option<string>)

  const FetchFallback := "Failed to fetch products"
  const SearchFallback := "Search failed"
  const ByIdFallback := "Failed to fetch product"

  /** `{ ...filters, ...patch }`. */
  function Merge(f: Filters, p: FiltersPatch): (r: Filters)
    ensures p.category.Some? ==> r.category == p.category.value
    ensures p.category.None? ==> r.category == f.category
    ensures p.priceRange.Some? ==> r.priceRange == p.priceRange.value
    ensures p.priceRange.None? ==> r.priceRange == f.priceRange
    ensures p.condition.Some? ==> r.condition == p.condition.value
    ensures p.condition.None? ==> r.condition == f.condition
    ensures p.location.Some? ==> r.location == p.location.value
    ensures p.location.None? ==> r.location == f.location
  {
    Filters(
      p.category.GetOr(f.category),
      p.priceRange.GetOr(f.priceRange),
      p.condition.GetOr(f.condition),
      p.location.GetOr(f.location))
  }

  const EmptyPatch := FiltersPatch(None, None, None, None)

  /** The actions the loading flag follows: every phase of the listing
      fetch, the search and the by-id fetch, and no phase of the featured
      fetch. */
  predicate Loads(a: Action) {
    || a.FetchProductsPending? || a.FetchProductsFulfilled? || a.FetchProductsRejected?
    || a.SearchProductsPending? || a.SearchProductsFulfilled? || a.SearchProductsRejected?
    || a.FetchProductByIdPending? || a.FetchProductByIdFulfilled? || a.FetchProductByIdRejected?
  }

  function Reduce(s: ProductState, a: Action): (r: ProductState)
    ensures r.isLoading != s.isLoading ==> Loads(a)
    ensures r.error != s.error ==> Loads(a)
    ensures r.filters != s.filters ==> a.SetFilters? || a.ClearFilters?
    ensures r.pagination != s.pagination ==> a.ResetPagination? || a.FetchProductsFulfilled?
    ensures r.featuredProducts != s.featuredProducts ==> a.FetchFeaturedFulfilled?
    ensures r.searchResults != s.searchResults ==> a.ClearSearchResults? || a.SearchProductsFulfilled?
    ensures r.products != s.products ==> a.FetchProductsFulfilled?
    ensures r.currentProduct != s.currentProduct ==> a.SetCurrentProduct? || a.FetchProductByIdFulfilled?
  {
    match a
    case ClearSearchResults => s.(searchResults := [])
    case SetFilters(p) => s.(filters := Merge(s.filters, p))
    case ClearFilters => s.(filters := InitialFilters)
    case SetCurrentProduct(p) => s.(currentProduct := if p.Some? then Some(Listing(p.value)) else None)
    case ResetPagination => s.(pagination := InitialPagination)
    case FetchProductsPending => s.(isLoading := true, error := None)
    case FetchProductsFulfilled(page) =>
      var products := if page.page == Some(1) then page.products else s.products + page.products;
      s.(isLoading := false, products := products, pagination := page.pagination, error := None)
    case FetchProductsRejected(msg) => s.(isLoading := false, error := Some(MessageOr(msg, FetchFallback)))
    case SearchProductsPending => s.(isLoading := true, error := None)
    case SearchProductsFulfilled(found) => s.(isLoading := false, searchResults := found, error := None)
    case SearchProductsRejected(msg) => s.(isLoading := false, error := Some(MessageOr(msg, SearchFallback)))
    case FetchProductByIdPending => s.(isLoading := true, error := None)
    case FetchProductByIdFulfilled(d) => s.(isLoading := false, currentProduct := Some(DetailPage(d)), error := None)
    case FetchProductByIdRejected(msg) => s.(isLoading := false, error := Some(MessageOr(msg, ByIdFallback)))
    case FetchFeaturedPending => s
    case FetchFeaturedFulfilled(ps) => s.(featuredProducts := ps)
    case FetchFeaturedRejected(_) => s
  }

  /** `setFilters` overwrites exactly the keys the payload carries, and an
      empty payload is the identity. */
  lemma SetFiltersOverlays(s: ProductState, p: FiltersPatch)
    ensures Reduce(s, SetFilters(EmptyPatch)) == s
    ensures var r := Reduce(s, SetFilters(p));
      && r == s.(filters := r.filters)
      && (p.category.Some? ==> r.filters.category == p.category.value)
      && (p.category.None? ==> r.filters.category == s.filters.category)
      && (p.priceRange.Some? ==> r.filters.priceRange == p.priceRange.value)
      && (p.priceRange.None? ==> r.filters.priceRange == s.filters.priceRange)
  {
  }

  /** A later patch wins over an earlier one key by key, so two successive
      `setFilters` equal one with the merged payload. */
  lemma SetFiltersCompose(s: ProductState, p: FiltersPatch, q: FiltersPatch)
    ensures Reduce(Reduce(s, SetFilters(p)), SetFilters(q))
         == Reduce(s, SetFilters(FiltersPatch(
              if q.category.Some? then q.category else p.category,
              if q.priceRange.Some? then q.priceRange else p.priceRange,
              if q.condition.Some? then q.condition else p.condition,
              if q.location.Some? then q.location else p.location)))
  {
  }

  /** `clearFilters` and `resetPagination` restore the initial values and
      touch nothing else; `clearSearchResults` empties the results only. */
  lemma ResetsRestoreInitial(s: ProductState)
    ensures Reduce(s, ClearFilters) == s.(filters := Initial.filters)
    ensures Reduce(s, ResetPagination) == s.(pagination := Initial.pagination)
    ensures Reduce(s, ClearSearchResults) == s.(searchResults := [])
    ensures Reduce(s, ClearFilters).filters == Filters("", PriceRange(0, 10000), "", "")
    ensures Reduce(s, ResetPagination).pagination == Pagination(1, 20, 0, true)
  {
  }

  /** Page one replaces the listing; any other page, or none, appends to it
      with the old listing as a prefix. Pagination comes from the payload. */
  lemma FetchPageAppendsOrReplaces(s: ProductState, page: ProductPage)
    ensures var r := Reduce(s, FetchProductsFulfilled(page));
      && r.pagination == page.pagination
      && (page.page == Some(1) ==> r.products == page.products)
      && (page.page != Some(1) ==>
            |r.products| == |s.products| + |page.products|
            && r.products[..|s.products|] == s.products
            && r.products[|s.products|..] == page.products)
  {
  }

  /** Search results are replaced on success and kept on failure. */
  lemma SearchReplacesOrKeeps(s: ProductState, found: seq<Product>, msg: Option<string>)
    ensures Reduce(s, SearchProductsFulfilled(found)).searchResults == found
    ensures var r := Reduce(s, SearchProductsRejected(msg));
      r.searchResults == s.searchResults && r.error == Some(if Truthy(msg) then msg.value else "Search failed")
  {
  }

  /** The featured fetch replaces its list and never touches the loading
      flag or the error; its pending and rejected phases do nothing. */
  lemma FeaturedLeavesLoading(s: ProductState, ps: seq<Product>, msg: Option<string>)
    ensures var r := Reduce(s, FetchFeaturedFulfilled(ps));
      r.featuredProducts == ps && r.isLoading == s.isLoading && r.error == s.error
    ensures Reduce(s, FetchFeaturedPending) == s && Reduce(s, FetchFeaturedRejected(msg)) == s
  {
  }

  /** Every fetch, search and by-id pending raises the loading flag and the
      matching fulfilled or rejected lowers it. */
  lemma LoadingBracketsRequests(s: ProductState, a: Action)
    requires Loads(a)
    ensures Reduce(s, a).isLoading <==> (a.FetchProductsPending? || a.SearchProductsPending? || a.FetchProductByIdPending?)
  {
  }

  // ---------------------------------------------------------------------
  // The product on display

  /** As written, a fulfilled by-id fetch puts the whole detail response
      where the detail screen expects a listing: the screen's
      `currentProduct.seller.id` has no seller to read. Nothing else but the
      loading flag and the error changes. */
  lemma ByIdFetchHidesSeller(s: ProductState, d: ProductDetail)
    ensures var r := Reduce(s, FetchProductByIdFulfilled(d));
      && r.currentProduct == Some(DetailPage(d))
      && ShownSellerId(r.currentProduct.value).None?
      && r == s.(currentProduct := r.currentProduct, isLoading := false, error := None)
  {
  }

  /** The reducer as evidently intended: the by-id fetch stores the listing
      the response wraps; every other action is reduced as written. */
  function ReduceIntended(s: ProductState, a: Action): (r: ProductState)
    ensures a.FetchProductByIdFulfilled? ==>
      r == Reduce(s, a).(currentProduct := Some(Listing(a.byId.product)))
    ensures !a.FetchProductByIdFulfilled? ==> r == Reduce(s, a)
  {
    match a
    case FetchProductByIdFulfilled(d) => s.(isLoading := false, currentProduct := Some(Listing(d.product)), error := None)
    case _ => Reduce(s, a)
  }

  /** With the corrected reducer, the product on display after a by-id
      fetch is the fetched listing, and the detail screen reads its seller's
      id; `setCurrentProduct` and the fetch then agree on what the field
      holds. */
  lemma IntendedByIdShowsSeller(s: ProductState, d: ProductDetail)
    ensures var r := ReduceIntended(s, FetchProductByIdFulfilled(d));
      && r.currentProduct == Reduce(s, SetCurrentProduct(Some(d.product))).currentProduct
      && ShownSellerId(r.currentProduct.value) == Some(d.product.seller.id)
      && !r.isLoading && r.error.None?
  {
  }
}

=== FILE: storage.dfy ===
/** The device's persisted key-value store, as the session code uses it:
    awaited `getItem`, `setItem` and `removeItem` calls, any of which may
    throw. A run of awaited calls stops at the first one that throws. */
module Storage {
  import opened Base

  type Store = map<string, string>

  const AuthTokenKey := "authToken"
  const UserDataKey := "userData"

  datatype Op = SetItem(key: string, value: string) | RemoveItem(key: string)

  /** Which call of a run throws, if any: calls before `step` complete,
      the call at `step` throws `error`, later calls never start. */
  datatype Fault = NoFault | FailAt(step: nat, error: Thrown)

  /** Whether a run of `n` calls meets the fault. */
  predicate Throws(fault: Fault, n: nat) {
    fault.FailAt? && fault.step < n
  }

  function GetItem(st: Store, key: string): Option<string> {
    if key in st then Some(st[key]) else None
  }

  function Apply(st: Store, op: Op): Store {
    match op
    case SetItem(k, v) => st[k := v]
    case RemoveItem(k) => st - {k}
  }

  function ApplyAll(st: Store, ops: seq<Op>): Store
    decreases |ops|
  {
    if ops == [] then st else ApplyAll(Apply(st, ops[0]), ops[1..])
  }

  /** The store after a run and the error it threw, if any. */
  datatype Effect = Effect(store: Store, thrown: Option<Thrown>)

  /** Runs `ops` in order under `fault`: the store holds the effect of
      exactly the calls that completed. */
  function Run(st: Store, ops: seq<Op>, fault: Fault): (r: Effect)
    ensures r.thrown.None? <==> !Throws(fault, |ops|)
    ensures r.thrown.None? ==> r.store == ApplyAll(st, ops)
    ensures r.thrown.Some? ==> r.thrown == Some(fault.error) && r.store == ApplyAll(st, ops[..fault.step])
  {
    if Throws(fault, |ops|) then Effect(ApplyAll(st, ops[..fault.step]), Some(fault.error))
    else Effect(ApplyAll(st, ops), None)
  }

  /** The key a call writes or removes. */
  function KeyOf(op: Op): string {
    match op
    case SetItem(k, _) => k
    case RemoveItem(k) => k
  }

  /** No call of `ops` names `k`. */
  predicate Untouched(ops: seq<Op>, k: string) {
    forall j | 0 <= j < |ops| :: KeyOf(ops[j]) != k
  }

  /** Running two batches of calls one after the other is running them as
      one batch. */
  lemma {:induction false} ApplyAllAppend(st: Store, a: seq<Op>, b: seq<Op>)
    ensures ApplyAll(st, a + b) == ApplyAll(ApplyAll(st, a), b)
    decreases |a|
  {
    if a == [] {
      assert a + b == b;
    } else {
      assert (a + b)[0] == a[0];
      assert (a + b)[1..] == a[1..] + b;
      ApplyAllAppend(Apply(st, a[0]), a[1..], b);
    }
  }

  /** A key no call names keeps its value, or its absence. */
  lemma {:induction false} ApplyAllFrame(st: Store, ops: seq<Op>, k: string)
    requires Untouched(ops, k)
    ensures GetItem(ApplyAll(st, ops), k) == GetItem(st, k)
    decreases |ops|
  {
    if ops != [] {
      assert KeyOf(ops[0]) != k;
      assert Untouched(ops[1..], k) by {
        forall j | 0 <= j < |ops[1..]| ensures KeyOf(ops[1..][j]) != k {
          assert ops[1..][j] == ops[j + 1];
        }
      }
      ApplyAllFrame(Apply(st, ops[0]), ops[1..], k);
    }
  }

  /** What a run promises its caller: a run that throws has applied a
      prefix of the calls, so issuing the calls from the failing one on
      completes what the run without the fault does; and a key that no call
      names is never touched, whether or not the run throws. */
  lemma RunResumes(st: Store, ops: seq<Op>, fault: Fault)
    ensures Throws(fault, |ops|) ==>
      ApplyAll(Run(st, ops, fault).store, ops[fault.step..]) == Run(st, ops, NoFault).store
    ensures forall k | Untouched(ops, k) :: GetItem(Run(st, ops, fault).store, k) == GetItem(st, k)
  {
    if Throws(fault, |ops|) {
      assert ops[..fault.step] + ops[fault.step..] == ops;
      ApplyAllAppend(st, ops[..fault.step], ops[fault.step..]);
    }
    forall k | Untouched(ops, k) ensures GetItem(Run(st, ops, fault).store, k) == GetItem(st, k) {
      if Throws(fault, |ops|) {
        assert Untouched(ops[..fault.step], k) by {
          forall j | 0 <= j < fault.step ensures KeyOf(ops[..fault.step][j]) != k {
            assert ops[..fault.step][j] == ops[j];
          }
        }
        ApplyAllFrame(st, ops[..fault.step], k);
      } else {
        ApplyAllFrame(st, ops, k);
      }
    }
  }

  const PurgeOps := [RemoveItem(AuthTokenKey), RemoveItem(UserDataKey)]

  /** `removeItem('authToken')` then `removeItem('userData')`. */
  function Purge(st: Store, fault: Fault): Effect {
    Run(st, PurgeOps, fault)
  }

  /** What a purge leaves: both keys gone when nothing throws; when the first
      removal throws nothing is gone, when the second does only the token is;
      no other key is ever touched. */
  lemma {:induction false} PurgeEffect(st: Store, fault: Fault)
    ensures !Throws(fault, 2) ==> Purge(st, fault).store == st - {AuthTokenKey, UserDataKey}
    ensures Throws(fault, 2) && fault.step == 0 ==> Purge(st, fault).store == st
    ensures Throws(fault, 2) && fault.step == 1 ==> Purge(st, fault).store == st - {AuthTokenKey}
    ensures forall k | k in st && k != AuthTokenKey && k != UserDataKey ::
      k in Purge(st, fault).store && Purge(st, fault).store[k] == st[k]
    ensures AuthTokenKey !in st && UserDataKey !in st ==> Purge(st, fault).store == st
  {
    var ops := PurgeOps;
    assert ops[1..][1..] == [];
    assert ApplyAll(st, ops) == ApplyAll(st - {AuthTokenKey}, ops[1..]);
    assert ApplyAll(st - {AuthTokenKey}, ops[1..]) == ApplyAll(st - {AuthTokenKey} - {UserDataKey}, []);
    assert st - {AuthTokenKey} - {UserDataKey} == st - {AuthTokenKey, UserDataKey};
    assert ops[..0] == [];
    assert ops[..1][1..] == [];
    assert ApplyAll(st, ops[..1]) == ApplyAll(st - {AuthTokenKey}, []);
  }

  /** The user snapshot written by login and signup. */
  function WriteSession(token: string, userData: string): seq<Op> {
    [SetItem(AuthTokenKey, token), SetItem(UserDataKey, userData)]
  }

  /** A completed session write stores both values and touches no other key;
      each write is followed by a read that returns what was written. */
  lemma {:induction false} WriteSessionEffect(st: Store, token: string, userData: string)
    ensures var r := ApplyAll(st, WriteSession(token, userData));
      && GetItem(r, AuthTokenKey) == Some(token)
      && GetItem(r, UserDataKey) == Some(userData)
      && r.Keys == st.Keys + {AuthTokenKey, UserDataKey}
      && forall k | k in st && k != AuthTokenKey && k != UserDataKey :: r[k] == st[k]
  {
    var ops := WriteSession(token, userData);
    assert ops[1..][1..] == [];
    assert ApplyAll(st, ops) == ApplyAll(st[AuthTokenKey := token], ops[1..]);
    assert ApplyAll(st[AuthTokenKey := token], ops[1..]) == ApplyAll(st[AuthTokenKey := token][UserDataKey := userData], []);
  }
}

=== FILE: text.dfy ===
/** The string operations the screens apply to user input: `trim`,
    `toLowerCase`, `includes`, `slice(-4)` and the two regular expressions.
    Whitespace and case are the ASCII subset of what JavaScript recognises. */
module Text {

  /** The ASCII characters JavaScript's `trim` and the regex class `\s` treat as
      white space: space, tab, line feed, carriage return, vertical tab, form feed. */
  predicate IsSpace(c: char) {
    c == ' ' || c == '\t' || c == '\n' || c == '\r' || c == '\U{000B}' || c == '\U{000C}'
  }

  predicate AllSpace(s: string) {
    forall k | 0 <= k < |s| :: IsSpace(s[k])
  }

  predicate NoSpace(s: string) {
    forall k | 0 <= k < |s| :: !IsSpace(s[k])
  }

  /** Leading white space removed. */
  function TrimStart(s: string): (r: string)
    ensures |r| <= |s| && r == s[|s| - |r|..]
    ensures AllSpace(s[..|s| - |r|])
    ensures r == [] || !IsSpace(r[0])
    decreases |s|
  {
    if s != [] && IsSpace(s[0]) then
      var r := TrimStart(s[1..]);
      assert s[1..][..|s| - 1 - |r|] == s[1..|s| - |r|];
      r
    else
      s
  }

  /** Trailing white space removed. */
  function TrimEnd(s: string): (r: string)
    ensures |r| <= |s| && r == s[..|r|]
    ensures AllSpace(s[|r|..])
    ensures r == [] || !IsSpace(r[|r| - 1])
    decreases |s|
  {
    if s != [] && IsSpace(s[|s| - 1]) then
      var r := TrimEnd(s[..|s| - 1]);
      assert s[|r|..] == s[..|s| - 1][|r|..] + [s[|s| - 1]];
      r
    else
      s
  }

  /** `s.trim()`: white space removed at both ends (`TrimBothEnds` states
      where the result sits in `s`); it is empty exactly when `s` is all
      white space. */
  function Trim(s: string): (r: string)
    ensures |r| <= |s|
    ensures r == [] <==> AllSpace(s)
    ensures r != [] ==> !IsSpace(r[0]) && !IsSpace(r[|r| - 1])
  {
    var t := TrimStart(s);
    var r := TrimEnd(t);
    TrimBothEnds(s, t, r);
    r
  }

  /** The two one-sided trims compose into `Trim`'s contract: what is left
      is the infix of `s` at offset `|s| - |t|`, with only white space
      before and after it. */
  lemma TrimBothEnds(s: string, t: string, r: string)
    requires |t| <= |s| && t == s[|s| - |t|..] && AllSpace(s[..|s| - |t|])
    requires t == [] || !IsSpace(t[0])
    requires |r| <= |t| && r == t[..|r|] && AllSpace(t[|r|..])
    requires r == [] || !IsSpace(r[|r| - 1])
    ensures var i := |s| - |t|;
      i + |r| <= |s| && r == s[i..i + |r|] && AllSpace(s[..i]) && AllSpace(s[i + |r|..])
    ensures r == [] <==> AllSpace(s)
    ensures r != [] ==> !IsSpace(r[0]) && !IsSpace(r[|r| - 1])
  {
    var i := |s| - |t|;
    assert r == s[i..i + |r|];
    assert s[i + |r|..] == t[|r|..];
    if r == [] {
      assert t[|r|..] == t;
      assert t == [];
      assert s[..i] == s;
    } else {
      assert r[0] == t[0];
      assert !IsSpace(s[i]);
    }
  }

  /** Leading white space in front of a string that starts with a
      non-space character is exactly what `trimStart` removes. */
  lemma {:induction false} TrimStartSkips(pad: string, core: string)
    requires AllSpace(pad) && (core == [] || !IsSpace(core[0]))
    ensures TrimStart(pad + core) == core
    decreases |pad|
  {
    if pad == [] {
      assert pad + core == core;
    } else {
      assert (pad + core)[1..] == pad[1..] + core;
      assert IsSpace(pad[0]);
      TrimStartSkips(pad[1..], core);
    }
  }

  /** Padding a string whose ends are not white space with white space in
      front: trimming gives the string back. */
  lemma TrimPadded(pad: string, core: string)
    requires AllSpace(pad) && (core == [] || (!IsSpace(core[0]) && !IsSpace(core[|core| - 1])))
    ensures Trim(pad + core) == core
  {
    TrimStartSkips(pad, core);
  }

  /** `!s.trim()`: the string is empty after trimming, which by `Trim`'s
      contract means it is all white space. */
  predicate IsBlank(s: string) {
    AllSpace(s)
  }

  /** A character outside the Basic Multilingual Plane, which UTF-16 writes
      as a surrogate pair. */
  predicate Astral(c: char) {
    c as int > 0xFFFF
  }

  /** `s.length`: JavaScript strings count UTF-16 code units, so an astral
      character counts twice. The count equals the number of characters
      exactly when there is no astral one. */
  function Utf16Length(s: string): (r: nat)
    ensures |s| <= r <= 2 * |s|
    ensures r == |s| <==> forall k | 0 <= k < |s| :: !Astral(s[k])
    decreases |s|
  {
    if s == [] then 0
    else
      var rest := Utf16Length(s[1..]);
      assert forall k | 1 <= k < |s| :: s[k] == s[1..][k - 1];
      (if Astral(s[0]) then 2 else 1) + rest
  }

  /** The count of a concatenation is the sum of the counts. */
  lemma {:induction false} Utf16LengthAppend(a: string, b: string)
    ensures Utf16Length(a + b) == Utf16Length(a) + Utf16Length(b)
    decreases |a|
  {
    if a != [] {
      assert (a + b)[0] == a[0] && (a + b)[1..] == a[1..] + b;
      Utf16LengthAppend(a[1..], b);
    } else {
      assert a + b == b;
    }
  }

  function LowerChar(c: char): char {
    if 'A' <= c <= 'Z' then (c as int + 32) as char else c
  }

  /** `s.toLowerCase()` on ASCII letters: no upper-case letter is left,
      every other character is kept in place, and each upper-case letter
      becomes its lower-case partner, 32 code points on. */
  function Lower(s: string): (r: string)
    ensures |r| == |s|
    ensures forall k | 0 <= k < |r| :: !('A' <= r[k] <= 'Z')
    ensures forall k | 0 <= k < |s| && !('A' <= s[k] <= 'Z') :: r[k] == s[k]
    ensures forall k | 0 <= k < |s| && 'A' <= s[k] <= 'Z' :: r[k] as int == s[k] as int + 32 && 'a' <= r[k] <= 'z'
  {
    seq(|s|, k requires 0 <= k < |s| => LowerChar(s[k]))
  }

  predicate OccursAt(s: string, q: string, i: int) {
    0 <= i <= |s| - |q| && s[i..i + |q|] == q
  }

  /** `s.includes(q)`: `q` occurs in `s` at some offset. */
  predicate Contains(s: string, q: string) {
    exists i | 0 <= i <= |s| - |q| :: OccursAt(s, q, i)
  }

  /** `s.slice(-4)`: the last four characters, or all of a shorter string. */
  function LastFour(s: string): (r: string)
    ensures |r| == if |s| < 4 then |s| else 4
    ensures s == s[..|s| - |r|] + r
  {
    if |s| <= 4 then s else s[|s| - 4..]
  }

  /** `/\S+@\S+\.\S+/.test(s)`: somewhere in `s` there is a non-space character,
      an `@`, a non-empty run of non-space characters, a `.`, and a non-space
      character. A longer match always contains one of this minimal shape. */
  predicate EmailShape(s: string) {
    exists i, j | 0 <= i < |s| && 0 <= j < |s| :: EmailAt(s, i, j)
  }

  /** The minimal match with its `@` at `i` and its `.` at `j`. */
  predicate EmailAt(s: string, i: int, j: int) {
    && 0 < i && i + 1 < j < |s| - 1
    && s[i] == '@' && s[j] == '.'
    && !IsSpace(s[i - 1]) && !IsSpace(s[j + 1])
    && NoSpace(s[i + 1..j])
  }

  predicate IsWordChar(c: char) {
    'a' <= c <= 'z' || 'A' <= c <= 'Z' || '0' <= c <= '9' || c == '_'
  }

  /** `/^[a-zA-Z0-9_]+$/.test(s)`. */
  predicate WordChars(s: string) {
    |s| > 0 && forall k | 0 <= k < |s| :: IsWordChar(s[k])
  }

  /** A match that lies inside an infix of `s` is a match of the infix. */
  lemma EmailAtInfix(s: string, a: int, b: int, i: int, j: int)
    requires 0 <= a < i && j + 1 < b <= |s|
    requires EmailAt(s, i, j)
    ensures EmailAt(s[a..b], i - a, j - a)
  {
    var u := s[a..b];
    var x, y := i - a + 1, j - a;
    assert |u[x..y]| == |s[i + 1..j]|;
    forall k | 0 <= k < y - x
      ensures u[x..y][k] == s[i + 1..j][k]
    {
      assert u[x..y][k] == u[x + k] == s[a + x + k];
    }
    assert u[x..y] == s[i + 1..j];
  }

  /** Stripping leading white space keeps an e-mail shape: the match
      starts at a non-space character. */
  lemma {:induction false} TrimStartKeepsEmailShape(s: string)
    requires EmailShape(s)
    ensures EmailShape(TrimStart(s))
    decreases |s|
  {
    if s != [] && IsSpace(s[0]) {
      var i, j :| 0 <= i < |s| && 0 <= j < |s| && EmailAt(s, i, j);
      EmailAtInfix(s, 1, |s|, i, j);
      assert s[1..|s|] == s[1..];
      TrimStartKeepsEmailShape(s[1..]);
    }
  }

  /** Stripping trailing white space keeps an e-mail shape: the match ends
      at a non-space character. */
  lemma {:induction false} TrimEndKeepsEmailShape(s: string)
    requires EmailShape(s)
    ensures EmailShape(TrimEnd(s))
    decreases |s|
  {
    if s != [] && IsSpace(s[|s| - 1]) {
      var i, j :| 0 <= i < |s| && 0 <= j < |s| && EmailAt(s, i, j);
      EmailAtInfix(s, 0, |s| - 1, i, j);
      assert s[0..|s| - 1] == s[..|s| - 1];
      assert EmailAt(s[..|s| - 1], i, j);
      TrimEndKeepsEmailShape(s[..|s| - 1]);
    }
  }

  /** Trimming cannot destroy an e-mail shape, so an address that passes the
      check still passes it once trimmed. */
  lemma TrimKeepsEmailShape(s: string)
    requires EmailShape(s)
    ensures EmailShape(Trim(s))
  {
    TrimStartKeepsEmailShape(s);
    TrimEndKeepsEmailShape(TrimStart(s));
  }

  /** A string with no white space at either end is its own trim. */
  lemma TrimUntouched(s: string)
    requires s == [] || (!IsSpace(s[0]) && !IsSpace(s[|s| - 1]))
    ensures Trim(s) == s
  {
    assert TrimStart(s) == s;
    assert TrimEnd(s) == s;
  }

  /** Trimming twice is trimming once. */
  lemma TrimIdempotent(s: string)
    ensures Trim(Trim(s)) == Trim(s)
  {
    TrimUntouched(Trim(s));
  }

  /** A string of the e-mail shape is never blank. */
  lemma EmailShapeNotBlank(s: string)
    requires EmailShape(s)
    ensures !IsBlank(s)
  {
    var i, j :| 0 <= i < |s| && 0 <= j < |s| && EmailAt(s, i, j);
    assert !IsSpace(s[i]);
  }

  /** Lower-casing twice is lower-casing once. */
  lemma LowerIdempotent(s: string)
    ensures Lower(Lower(s)) == Lower(s)
  {
    assert forall k | 0 <= k < |s| :: LowerChar(LowerChar(s[k])) == LowerChar(s[k]);
  }

  /** Lower-casing neither creates nor removes white space, so it keeps a
      string blank or not blank. */
  lemma LowerKeepsBlank(s: string)
    ensures IsBlank(Lower(s)) <==> IsBlank(s)
  {
    assert forall k | 0 <= k < |s| :: IsSpace(Lower(s)[k]) <==> IsSpace(s[k]);
  }
}

=== FILE: user_slice.dfy ===
/** The user slice of the Redux store: the signed-in user's profile and the
    flags of its fetch and update requests. A JavaScript object may lack any
    of its keys (an update response is `Partial<UserProfile>`, and spreading
    it over a null profile yields just its keys), so every profile field is
    optional here and `None` stands for an absent key. */
module UserSlice {
  import opened Base

  datatype Preferences = Preferences(
    notifications: Option<bool>,
    emailUpdates: Option<bool>,
    pushNotifications: Option<bool>)

  datatype Profile = Profile(
    id: Option<string>,
    username: Option<string>,
    email: Option<string>,
    firstName: Option<string>,
    lastName: Option<string>,
    avatar: Option<string>,
    phone: Option<string>,
    location: Option<string>,
    bio: Option<string>,
    rating: Option<real>,
    totalSales: Option<int>,
    totalPurchases: Option<int>,
    memberSince: Option<string>,
    preferences: Option<Preferences>)

  /** The empty object `{}`, which is also what `...null` contributes. */
  const NoFields := Profile(None, None, None, None, None, None, None, None, None, None, None, None, None, None)
  const NoPreferences := Preferences(None, None, None)

  datatype UserState = UserState(profile: Option<Profile>, isLoading: bool, error: Option<string>, isUpdating: bool)

  const Initial := UserState(None, false, None, false)

  datatype Action =
    | ClearError
    | SetProfile(newProfile: Profile)
    | FetchProfilePending
    | FetchProfileFulfilled(fetched: Profile)
    | FetchProfileRejected(fetchError: Option<string>)
    | UpdateProfilePending
    | UpdateProfileFulfilled(changes: Profile)
    | UpdateProfileRejected(updateError: Option<string>)
    | UploadAvatarPending
    | UploadAvatarFulfilled(avatarUrl: string)
    | UploadAvatarRejected(avatarError: Option<string>)
    | UpdatePreferencesPending
    | UpdatePreferencesFulfilled(prefs: Preferences)
    | UpdatePreferencesRejected(prefsError: Option<string>)

  const FetchFallback := "Failed to fetch profile"
  const UpdateFallback := "Failed to update profile"

  /** The keys of a profile object, and what a key may hold. */
  datatype Key =
    | Id | Username | Email | FirstName | LastName | Avatar | Phone | Location | Bio
    | Rating | TotalSales | TotalPurchases | MemberSince | PreferencesKey

  datatype Value = TextValue(text: string) | NumberValue(number: real) | NestedValue(nested: Preferences)

  function AsText(o: Option<string>): Option<Value> {
    if o.Some? then Some(TextValue(o.value)) else None
  }

  function AsNumber(o: Option<int>): Option<Value> {
    if o.Some? then Some(NumberValue(o.value as real)) else None
  }

  function AsFraction(o: Option<real>): Option<Value> {
    if o.Some? then Some(NumberValue(o.value)) else None
  }

  /** `p[k]`, with `None` for an absent key. */
  function Get(p: Profile, k: Key): Option<Value> {
    match k
    case Id => AsText(p.id)
    case Username => AsText(p.username)
    case Email => AsText(p.email)
    case FirstName => AsText(p.firstName)
    case LastName => AsText(p.lastName)
    case Avatar => AsText(p.avatar)
    case Phone => AsText(p.phone)
    case Location => AsText(p.location)
    case Bio => AsText(p.bio)
    case Rating => AsFraction(p.rating)
    case TotalSales => AsNumber(p.totalSales)
    case TotalPurchases => AsNumber(p.totalPurchases)
    case MemberSince => AsText(p.memberSince)
    case PreferencesKey => if p.preferences.Some? then Some(NestedValue(p.preferences.value)) else None
  }

  datatype PrefKey = Notifications | EmailUpdates | PushNotifications

  function GetPref(p: Preferences, k: PrefKey): Option<bool> {
    match k
    case Notifications => p.notifications
    case EmailUpdates => p.emailUpdates
    case PushNotifications => p.pushNotifications
  }

  function Pick<T>(base: Option<T>, over: Option<T>): Option<T> {
    if over.Some? then over else base
  }

  /** `{ ...p, ...q }`: a shallow overlay, key by key: a key `q` carries
      wins, every other key keeps `p`'s value. A `preferences` key in `q`
      replaces the whole preferences object. */
  function Overlay(p: Profile, q: Profile): (r: Profile)
    ensures forall k :: Get(q, k).Some? ==> Get(r, k) == Get(q, k)
    ensures forall k :: Get(q, k).None? ==> Get(r, k) == Get(p, k)
  {
    SpreadByKey(p, q);
    Spread(p, q)
  }

  /** The overlay field by field. */
  function Spread(p: Profile, q: Profile): Profile {
    Profile(
      Pick(p.id, q.id), Pick(p.username, q.username), Pick(p.email, q.email),
      Pick(p.firstName, q.firstName), Pick(p.lastName, q.lastName), Pick(p.avatar, q.avatar),
      Pick(p.phone, q.phone), Pick(p.location, q.location), Pick(p.bio, q.bio),
      Pick(p.rating, q.rating), Pick(p.totalSales, q.totalSales), Pick(p.totalPurchases, q.totalPurchases),
      Pick(p.memberSince, q.memberSince), Pick(p.preferences, q.preferences))
  }

  /** Each key of the field-by-field overlay, one key at a time. */
  lemma SpreadByKey(p: Profile, q: Profile)
    ensures forall k :: Get(Spread(p, q), k) == if Get(q, k).Some? then Get(q, k) else Get(p, k)
  {
    forall k ensures Get(Spread(p, q), k) == if Get(q, k).Some? then Get(q, k) else Get(p, k) {
      match k
      case Id => case Username => case Email => case FirstName => case LastName =>
      case Avatar => case Phone => case Location => case Bio => case Rating =>
      case TotalSales => case TotalPurchases => case MemberSince => case PreferencesKey =>
    }
  }

  /** `{ ...p, ...q }` on preferences, key by key. */
  function MergePreferences(p: Preferences, q: Preferences): (r: Preferences)
    ensures forall k :: GetPref(q, k).Some? ==> GetPref(r, k) == GetPref(q, k)
    ensures forall k :: GetPref(q, k).None? ==> GetPref(r, k) == GetPref(p, k)
  {
    Preferences(
      Pick(p.notifications, q.notifications),
      Pick(p.emailUpdates, q.emailUpdates),
      Pick(p.pushNotifications, q.pushNotifications))
  }

  /** A profile with every key the interface declares as required. */
  predicate Complete(p: Profile) {
    && p.id.Some? && p.username.Some? && p.email.Some? && p.firstName.Some? && p.lastName.Some?
    && p.rating.Some? && p.totalSales.Some? && p.totalPurchases.Some? && p.memberSince.Some?
    && p.preferences.Some?
  }

  function Reduce(s: UserState, a: Action): (r: UserState)
    ensures r.isLoading != s.isLoading ==> a.FetchProfilePending? || a.FetchProfileFulfilled? || a.FetchProfileRejected?
    ensures r.isUpdating != s.isUpdating ==> a.UpdateProfilePending? || a.UpdateProfileFulfilled? || a.UpdateProfileRejected?
    ensures s.profile.None? && r.profile.Some? ==> a.SetProfile? || a.FetchProfileFulfilled? || a.UpdateProfileFulfilled?
    ensures s.profile.Some? ==> r.profile.Some?
  {
    match a
    case ClearError => s.(error := None)
    case SetProfile(p) => s.(profile := Some(p))
    case FetchProfilePending => s.(isLoading := true, error := None)
    case FetchProfileFulfilled(p) => s.(isLoading := false, profile := Some(p), error := None)
    case FetchProfileRejected(msg) => s.(isLoading := false, error := Some(MessageOr(msg, FetchFallback)))
    case UpdateProfilePending => s.(isUpdating := true, error := None)
    case UpdateProfileFulfilled(q) =>
      s.(isUpdating := false, profile := Some(Overlay(s.profile.GetOr(NoFields), q)), error := None)
    case UpdateProfileRejected(msg) => s.(isUpdating := false, error := Some(MessageOr(msg, UpdateFallback)))
    case UploadAvatarPending => s
    case UploadAvatarFulfilled(url) =>
      if s.profile.Some? then s.(profile := Some(s.profile.value.(avatar := Some(url)))) else s
    case UploadAvatarRejected(_) => s
    case UpdatePreferencesPending => s
    case UpdatePreferencesFulfilled(q) =>
      if s.profile.Some? then
        var p := s.profile.value;
        s.(profile := Some(p.(preferences := Some(MergePreferences(p.preferences.GetOr(NoPreferences), q)))))
      else s
    case UpdatePreferencesRejected(_) => s
  }

  /** The fetch replaces the profile on success; on failure the old profile
      stays and the error is the message or the fixed fallback. */
  lemma FetchReplacesOrKeeps(s: UserState, p: Profile, msg: Option<string>)
    ensures Reduce(s, FetchProfileFulfilled(p)).profile == Some(p)
    ensures var r := Reduce(s, FetchProfileRejected(msg));
      && r.profile == s.profile && !r.isLoading
      && r.error == Some(if Truthy(msg) then msg.value else "Failed to fetch profile")
  {
  }

  /** The update request drives `isUpdating` (up on pending, down when it
      settles) and never `isLoading`. */
  lemma UpdateDrivesIsUpdating(s: UserState, q: Profile, msg: Option<string>)
    ensures Reduce(s, UpdateProfilePending).isUpdating
    ensures !Reduce(s, UpdateProfileFulfilled(q)).isUpdating && !Reduce(s, UpdateProfileRejected(msg)).isUpdating
    ensures Reduce(s, UpdateProfilePending).isLoading == s.isLoading
    ensures Reduce(s, UpdateProfileFulfilled(q)).isLoading == s.isLoading
    ensures Reduce(s, UpdateProfileRejected(msg)).isLoading == s.isLoading
    ensures Reduce(s, UpdateProfileRejected(msg)).profile == s.profile
  {
  }

  /** A fulfilled update sets exactly the keys the response carries and keeps
      every other key; over a null profile the result has only the
      response's keys. */
  lemma UpdateOverlaysPayload(s: UserState, q: Profile)
    ensures var r := Reduce(s, UpdateProfileFulfilled(q));
      && r.profile.Some?
      && (forall k :: Get(q, k).Some? ==> Get(r.profile.value, k) == Get(q, k))
      && (forall k :: Get(q, k).None? && s.profile.Some? ==> Get(r.profile.value, k) == Get(s.profile.value, k))
      && (forall k :: Get(q, k).None? && s.profile.None? ==> Get(r.profile.value, k).None?)
      && (s.profile.None? ==> r.profile == Some(q))
      && (q == NoFields && s.profile.Some? ==> r.profile == s.profile)
  {
  }

  /** Applying the same update response twice is applying it once, and a
      complete profile stays complete under any update. */
  lemma UpdateIdempotentAndComplete(s: UserState, q: Profile)
    ensures Reduce(Reduce(s, UpdateProfileFulfilled(q)), UpdateProfileFulfilled(q)) == Reduce(s, UpdateProfileFulfilled(q))
    ensures s.profile.Some? && Complete(s.profile.value) ==> Complete(Reduce(s, UpdateProfileFulfilled(q)).profile.value)
  {
  }

  /** The avatar upload changes only the avatar of an existing profile and
      leaves a null profile null. */
  lemma AvatarOnlyTouchesAvatar(s: UserState, url: string)
    ensures var r := Reduce(s, UploadAvatarFulfilled(url));
      && (s.profile.None? ==> r == s)
      && (s.profile.Some? ==> r == s.(profile := Some(s.profile.value.(avatar := Some(url)))))
      && r.isLoading == s.isLoading && r.isUpdating == s.isUpdating && r.error == s.error
  {
  }

  /** The preferences update merges into `preferences` only: the other
      profile keys and the preferences the payload omits stay; with no
      profile it does nothing. */
  lemma PreferencesMergeOnly(s: UserState, q: Preferences)
    ensures var r := Reduce(s, UpdatePreferencesFulfilled(q));
      && (s.profile.None? ==> r == s)
      && (s.profile.Some? ==>
            && r.profile.Some?
            && r.profile.value == s.profile.value.(preferences := r.profile.value.preferences)
            && r.profile.value.preferences.Some?
            && (forall k :: GetPref(q, k).Some? ==> GetPref(r.profile.value.preferences.value, k) == GetPref(q, k))
            && (forall k :: GetPref(q, k).None? && s.profile.value.preferences.Some? ==>
                  GetPref(r.profile.value.preferences.value, k) == GetPref(s.profile.value.preferences.value, k))
            && (forall k :: GetPref(q, k).None? && s.profile.value.preferences.None? ==>
                  GetPref(r.profile.value.preferences.value, k).None?))
  {
  }

  /** `clearError` changes only the error; `setProfile` only the profile. */
  lemma SettersFrame(s: UserState, p: Profile)
    ensures Reduce(s, ClearError) == s.(error := None)
    ensures Reduce(s, SetProfile(p)) == s.(profile := Some(p))
  {
  }
}
